=== FILE: README.md ===
# Construction-material search core, in Dafny

This project models the search core of the construction-aggregator web
application. A single search request travels as follows:

1. **Request parsing.** `GET /api/search` reads `material`, `location`, `sortBy` and `vendors` from the query string.
   - It rejects a request without a material.
   - It defaults the sort to `price_low_to_high` and the vendor list to `home-depot`.
   - It pulls a five-digit ZIP code out of the location.
   - It builds one search phrase from the first requested vendor.
2. **Vendor dispatch.** The route hands the request to the vendor manager.
   - The manager is an insertion-ordered registry of vendors.
   - It searches every requested id that names a registered, available vendor, in request order.
   - It silently skips every other id.
3. **Vendor search.** Four vendor variants exist.
   - Home Depot queries SerpAPI: the network is an oracle from query parameters to a fetch outcome.
   - Lowe's, Menards and local suppliers are placeholders that answer "coming soon".
   - A vendor never fails: any failure comes back as a result with no products and an error message.
4. **Response.** The route builds the response from the vendors' results.
   - It merges the products with `flatMap`.
   - It collects the truthy error messages.
   - It stable-sorts the products by price (ascending or descending) or by rating.
   - It returns the products, their count, the vendor names and the errors (omitted when there are none).

The stand-alone Home Depot client in `lib/api.ts` is modelled as well:

- its material-term table;
- the request it builds from its own parameter record;
- its product translation;
- its error results;
- the defaults of `searchConstructionMaterial`.

Modules, one concept each:

| file | module | what it holds |
|---|---|---|
| `wrappers.dfy` | `Wrappers` | `Option` |
| `js.dfy` | `Js` | JavaScript truthiness, `||` on strings, `split`/`join`, integer `toString` |
| `seqs.dfy` | `Seqs` | selected positions, filter, flatten |
| `upstream.dfy` | `Upstream` | environment, SerpAPI query parameters, fetch outcomes, the key rule |
| `query_mapper.dfy` | `QueryMapper` | `materialSearchMappings` and `getSearchQuery` |
| `vendors.dfy` | `Vendors` | product, params and result records, the four vendors, Home Depot search |
| `registry.dfy` | `Registry` | `VendorManager`: add, get, available vendors, both dispatchers |
| `price.dfy` | `Price` | the price sort key |
| `stable_sort.dfy` | `StableSort` | a stable sort by a real key, and its uniqueness |
| `zip.dfy` | `Zip` | `/\b\d{5}\b/` on the location |
| `search_route.dfy` | `SearchRoute` | the route handler |
| `homedepot_api.dfy` | `HomeDepotApi` | the stand-alone Home Depot client |

### How the price is read

A price is not read from its first numeric substring.
`parseFloat(price.replace(/[^0-9.]/g, '')) || 0` works in two steps:

- the replacement deletes every character other than a digit or a dot, **everywhere** in the string;
- `parseFloat` then reads the longest `[digits][.digits]` prefix of what is left that holds at least one digit, and the key is 0 when there is none.

A thousands comma is therefore harmless: `$1,299.00` sorts as 1299. A price
range is not: `$10.00 - $20.00` strips to `10.0020.00` and sorts as 10.002.
The model proves the general form of this (`Price.PriceRangeKey`) and the
concrete case (`Price.PriceRangeExample`).

Prices are exact reals here, not IEEE doubles.

### Vendor names

Products and results carry the vendor's display name (`Home Depot`), not
its registry id (`home-depot`).

## Model

| member | source | states |
|---|---|---|
| Vendors.MapSortBy | lib/vendors.ts:147-154 | The Home Depot sort code is always one of the four codes the endpoint accepts. `rating` maps to `top_rated` and nothing else does. Both price policies map to themselves. Everything else becomes `best_match`. |
| Vendors.HomeDepotQueryShape | lib/vendors.ts:74-86 | The adapter's request always carries engine `home_depot`, the key, the query, country `us`, output `json` and `ps=24`. The sort, ZIP, price bounds and page appear iff their values are truthy: `0` and `""` are dropped. No name is repeated. |
| Vendors.HomeDepotSearch | lib/vendors.ts:63-136 | The search never fails. It reports an error iff there is no key, or the fetch is not delivered (rejected, non-ok, or unparsable). It reports the missing-key message when there is no key. A rejected fetch or an unparsable body reports its own message. A non-ok response reports `Home Depot API error: <statusText>`. An error comes with no products and no total. Otherwise there is one canonical product per upstream record (none when the list is absent) and the upstream total. |
| Vendors.SearchProducts | lib/vendors.ts:168-235 | Every vendor names itself in its result and stamps its name, logo and `inStock` on each product. The three placeholders return exactly no products and their "coming soon" message. Home Depot runs its search. |
| Upstream.SerpApiKey | lib/vendors.ts:66-72 | The key is the public key when that is non-empty, else the server key when that is non-empty, else absent. A key in use is never empty. |
| QueryMapper.GetSearchQuery | lib/vendors.ts:360-363 | The phrase is the table's entry for (material, vendor) when there is one. Otherwise it is the material type unchanged. |
| QueryMapper.PhrasesNonEmpty | lib/vendors.ts:320-357 | Every phrase in the table is non-empty, so the `|| materialType` fallback fires only for a missing entry. |
| Registry.GetVendorSpec | lib/vendors.ts:276-278 | `getVendor` finds a vendor iff the id is registered, and the vendor it finds is registered under that id. |
| Registry.AddVendor | lib/vendors.ts:272-274 | After `set`, the id finds the new vendor and every other id finds what it found before. A new id is appended to the id order. An existing id keeps its position. Uniqueness of ids is preserved. |
| Registry.NewManager | lib/vendors.ts:250-270 | The constructor registers Home Depot under `home-depot`, with the public key, iff the public key is truthy. It registers no other id. Every vendor it registers is available. |
| Registry.GetAvailableVendors | lib/vendors.ts:280-282 | The available vendors are the registered vendors that report available, in registration order. A vendor is listed iff it is registered and available. |
| Registry.AddUnavailableKeepsAvailable | lib/vendors.ts:264-282 | Registering a vendor that is not available, under a new id, leaves the available vendors unchanged. The placeholder registrations at lines 267-269 would be such vendors when their keys or suppliers are missing. |
| Registry.SearchAllVendors | lib/vendors.ts:284-292 | There is one result per available vendor, each that vendor's search, in registration order. |
| Registry.SearchSpecificSpec | lib/vendors.ts:294-316 | The k-th result is the search of the vendor named by the k-th requested id that resolves to a registered, available vendor, duplicates included. There is no other result. |
| Registry.SearchSpecificAppend | lib/vendors.ts:300-309 | Dispatching `a + b` gives the results of dispatching `a` followed by those of `b`. |
| Registry.SkipUnresolved | lib/vendors.ts:303-308 | An unknown or unavailable id leaves no trace: the dispatch is as if it had not been requested. |
| Registry.AddUnavailableKeepsDispatch | lib/vendors.ts:264-309 | Registering a vendor that is not available, under a new id, changes no dispatch. Requesting that id is skipped just like an unknown id. |
| Registry.SearchSpecificNoneResolve | lib/vendors.ts:303-308 | When no requested id resolves, nothing is searched. |
| Registry.SearchSpecificOfAllIds | lib/vendors.ts:280-316 | With unique ids, dispatching every registered id in registration order equals `searchAllVendors`. |
| Js.IntToString | lib/vendors.ts:82-84 | `n.toString()` starts with `-` iff `n` is negative. Its digits read back as the absolute value, with no leading zero: it is the shortest spelling. |
| Js.SplitJoin | app/api/search/route.ts:13 | `split` on a comma inverts `join` for comma-free parts. |
| SearchRoute.RequestedVendors | app/api/search/route.ts:13 | An absent `vendors` parameter asks for `home-depot`. A present one, even empty, is split on commas into comma-free ids that join back to it. There is always at least one id. |
| SearchRoute.SortPolicy | app/api/search/route.ts:12 | The policy is the `sortBy` parameter when that is non-empty, and `price_low_to_high` otherwise. It is never empty. |
| SearchRoute.VendorParams | app/api/search/route.ts:40-49 | Every vendor receives the phrase for the first requested vendor, the raw location, the extracted ZIP and the defaulted sort. It receives no price bounds, page or limit. |
| Zip.FirstZipFrom | app/api/search/route.ts:28 | The scan returns the leftmost position at or after the start where `\b\d{5}\b` matches, or reports that there is none. |
| Zip.ExtractZip | app/api/search/route.ts:26-30 | A falsy location gives no ZIP. A ZIP is always five digits. A ZIP is found iff the location is non-empty and holds a stand-alone run of five digits. |
| Zip.ExtractZipLeftmost | app/api/search/route.ts:28-29 | The ZIP is the leftmost match. |
| Zip.PlainZip | app/api/search/route.ts:28-29 | A location that is just five digits is its own ZIP. |
| Zip.ZipAfterCity | app/api/search/route.ts:28-29 | Five digits after a digit-free city and state ending in a non-word character are found. |
| Zip.NoZipInLongerNumber | app/api/search/route.ts:28-29 | Six digits in a row yield no ZIP. |
| SearchRoute.MergeProductsSpec | app/api/search/route.ts:58 | The merge has as many products as the results together. A product is merged iff some result holds it. |
| SearchRoute.MergeProductsAppend | app/api/search/route.ts:58 | Merging keeps result order: merging `a + b` is merging `a` followed by merging `b`. |
| SearchRoute.CollectErrors | app/api/search/route.ts:59 | There is exactly one message per result with a truthy error: the k-th message is the error of the k-th such result. The messages keep result order and include duplicates. None is collected iff no result has a truthy error. |
| SearchRoute.CollectErrorsMembership | app/api/search/route.ts:59 | A message is collected iff it is non-empty and some result carries it. |
| Price.StripIsFilter | app/api/search/route.ts:67 | The regex replacement keeps exactly the digits and dots, in order: it is a filter. |
| Price.StripMembership | app/api/search/route.ts:67 | A character survives stripping iff it is in the price and is a digit or a dot. |
| Price.ParseFloatPrefix | app/api/search/route.ts:67 | `parseFloat` of the stripped text is never negative. It is NaN iff the text starts neither with a digit nor with a dot followed by a digit. |
| Price.IntegerPrefix | app/api/search/route.ts:67 | A stripped text of digits alone, with no dot, reads as that integer. |
| Price.FractionPrefix | app/api/search/route.ts:67 | A dot and digits, followed by nothing or by a non-digit, read as that fraction with no integer part. |
| Price.DecimalPrefix | app/api/search/route.ts:67 | At least one digit, a dot and any number of digits, followed by nothing or a non-digit, read as the integer part plus the fraction. |
| Price.DecimalKey | app/api/search/route.ts:67 | A price whose stripped form is `<digits>.<digits>` followed by nothing or a non-digit, as for `$12.98`, sorts as the integer part plus the fraction. |
| Price.PriceKey | app/api/search/route.ts:67 | The price sort key is never negative. |
| Price.PriceKeyNoDigits | app/api/search/route.ts:67 | A price without any digit sorts as 0. |
| Price.IntegerKey | app/api/search/route.ts:67 | A price that strips to a run of digits, such as `$1,299`, sorts as that integer. |
| Price.FractionKey | app/api/search/route.ts:67 | A price that strips to a dot and digits, such as `.75`, sorts as that fraction. |
| Price.PriceKeyIgnoresOtherChars | app/api/search/route.ts:67 | Deleting the characters other than digits and dots does not change the key. |
| Price.FormattedPriceKey | app/api/search/route.ts:67 | `$<dollars>.<cc>` sorts as exactly dollars + cc/100. |
| Price.WholeDollarKey | app/api/search/route.ts:67 | `$<dollars>` sorts as exactly that many dollars. |
| Price.GroupedPriceKey | app/api/search/route.ts:67 | A thousands comma is ignored: `$1,299.00` sorts as 1299. |
| Price.PriceRangeKey | app/api/search/route.ts:67 | A range `$a.cc - $b.dd` sorts as `a` plus the fraction spelled by `cc` followed by the digits of `b`. |
| Price.PriceRangeExample | app/api/search/route.ts:67 | `$10.00 - $20.00` sorts as 10.002. |
| StableSort.SortBy | app/api/search/route.ts:66-70 | The sort returns a permutation of its input, ordered by the key. |
| StableSort.SortStable | app/api/search/route.ts:66-70 | Elements with equal keys keep their relative order. |
| StableSort.StableSortIsSortBy | app/api/search/route.ts:66-70 | Any key-ordered sequence whose equal-key classes match the input's equals this sort. A stable sort is unique. |
| StableSort.SortSorted | app/api/search/route.ts:66-79 | A sequence already ordered by the key is left as it is. |
| SearchRoute.SortProducts | app/api/search/route.ts:65-79 | The products are permuted, never lost or invented. Price ascending is non-decreasing in the price key, and price descending is non-increasing. Rating is non-increasing in `rating || 0`. `relevance` and unknown policies leave the merged order unchanged. |
| SearchRoute.SortProductsIsStable | app/api/search/route.ts:65-79 | For every policy, the sort is the stable sort by that policy's key. |
| SearchRoute.SortProductsKeepsTies | app/api/search/route.ts:65-79 | Products with equal keys keep their merged order. |
| SearchRoute.PriceSortExample | app/api/search/route.ts:65-70 | `$10.00`, `$5.50`, `$20` sorted by price ascending come out as `$5.50`, `$10.00`, `$20`. |
| SearchRoute.Respond | app/api/search/route.ts:64-86 | The response is a success. Its products are the merge sorted by the requested policy, so they are a permutation of the merge, and its total is their number. The vendor names are the results' vendor names in order. Errors are omitted iff no result has a truthy error, and otherwise are the collected messages. |
| SearchRoute.Get | app/api/search/route.ts:10-23 | The request is rejected with "Material type is required" iff the material is absent or empty. Otherwise the response is built from the dispatched results. |
| SearchRoute.TotalIsMergedCount | app/api/search/route.ts:83 | The reported total is the sum of the vendors' product counts. |
| SearchRoute.NoKeyEmptyResponse | app/api/search/route.ts:36-86 | Without a public SerpAPI key, every request with a material gets an empty, error-free response. |
| SearchRoute.UnknownVendorSkipped | app/api/search/route.ts:54 | With a key, `vendors=home-depot,lowes` answers with the Home Depot result alone. |
| HomeDepotApi.SearchTerm | lib/api.ts:109 | The client's search term is the table's phrase for a known material, else the material type unchanged. |
| HomeDepotApi.SearchTermAgreesWithVendorTable | lib/api.ts:34-41 | The client's term table gives the same phrase as the vendor table's Home Depot column. |
| HomeDepotApi.RequestQueryShape | lib/api.ts:54-66 | The client's request always carries engine, key, query, output `json`, and the country (defaulting to `us`). Sort, ZIP, bounds, page and page size appear iff their values are truthy. No name is repeated. |
| HomeDepotApi.ToHomeDepotProductRoundTrip | lib/api.ts:77-88 | The product translation loses nothing but the difference between an absent and an empty id, title or price. |
| HomeDepotApi.SearchHomeDepotProducts | lib/api.ts:43-101 | The call never fails. An error comes with no products and no total. The missing-key message is reported when there is no key. A rejected fetch or an unparsable body reports its own message. A non-ok status gives `API request failed: <status> <text>`. There is no error iff the fetch is delivered, and then there is one product per upstream record and the upstream total. |
| HomeDepotApi.ConstructionMaterialRequest | lib/api.ts:104-117 | The material search sends the mapped term and country `us`. The sort is the given one, or `price_low_to_high` when none is given; an empty sort is dropped. The location goes out as the delivery ZIP when truthy. No bounds or page are sent. `ps=24`. |

## Left out

- The network, the clock and `console.log` are out. `fetch` is a function argument from query parameters to an outcome, and within one request the same parameters always get the same outcome.
- URL text is out. The request is the ordered list of `URLSearchParams` entries; percent-encoding and the URL string are not modelled.
- `Promise.all` concurrency is out. The searches are an order-preserving map, which is what `Promise.all` returns.
- JSON encoding of the response and the HTTP status codes are out. `SearchResponse` distinguishes the 400 body from the 200 body.
- The 500 path of the route (`catch` in `GET`) is out. Every modelled step is total, and the vendors capture their own failures, so no modelled input reaches it.
- Non-`Error` throws ("Unknown error") are out. Every failure modelled carries a message.
- Floating point is out. Prices and ratings are exact reals, so NaN and infinities do not arise, and `|| 0` on a parse result applies only to NaN.
- Numeric parameters are integers (`lowerbound`, `upperbound`, `page`, `ps`, `minPrice`, `maxPrice`). Fractional values and their `toString` are not modelled.
- The term tables `materialSearchMappings` and `materialSearchTerms` are finite maps. Property keys inherited from `Object.prototype` are not modelled: for example, `getSearchQuery("constructor", "name")` returns `"Object"` in JavaScript.
- Upstream fields are assumed to have the declared JSON types; a non-string `price`, for example, is not modelled.
- `getProductDetails` is out. It is a stub returning `null` in every vendor, and nothing calls it.
- `LocalSupplierVendor`'s suppliers are opaque strings, because `LocalSupplierVendor` types them as `any` and only their count matters.
- `app/page.tsx` (the client UI) and `app/api/test/route.ts` are not part of this model.
- Vendors.HomeDepotSearch: does not model the key-masking debug URL that is only logged.

=== FILE: homedepot_api.dfy ===
/** The stand-alone Home Depot client: the material-term table, the request
    it builds from its own parameter record, the translation of the upstream
    payload, and the material search helper with its defaults. */
module HomeDepotApi {
  import opened Wrappers
  import opened Js
  import opened Upstream
  import QueryMapper

  /** A product as this client reports it. */
  datatype HomeDepotProduct = HomeDepotProduct(
    title: string,
    price: string,
    productId: string,
    rating: Option<real>,
    reviews: Option<int>,
    brand: Option<string>,
    deliveryOptions: Option<seq<string>>,
    storeAvailability: Option<bool>,
    image: Option<string>,
    url: Option<string>)

  /** The client's request record. */
  datatype HomeDepotSearchParams = HomeDepotSearchParams(
    q: string,
    country: Option<string>,
    hdSort: Option<string>,
    deliveryZip: Option<string>,
    lowerbound: Option<int>,
    upperbound: Option<int>,
    page: Option<int>,
    ps: Option<int>)

  /** The client's response record. */
  datatype HomeDepotSearchResponse = HomeDepotSearchResponse(
    products: seq<HomeDepotProduct>,
    totalResults: Option<int>,
    error: Option<string>)

  /** `materialSearchTerms`: material type to Home Depot search phrase. */
  const MaterialSearchTerms: map<string, string> := map[
    "concrete" := "concrete mix",
    "steel" := "steel rebar",
    "cement" := "cement",
    "wood" := "lumber wood",
    "brick" := "brick masonry",
    "glass" := "glass window"
  ]

  /** `materialSearchTerms[materialType] || materialType`. */
  function SearchTerm(materialType: string): (term: string)
    ensures materialType in MaterialSearchTerms ==> term == MaterialSearchTerms[materialType]
    ensures materialType !in MaterialSearchTerms ==> term == materialType
  {
    if materialType in MaterialSearchTerms && MaterialSearchTerms[materialType] != "" then
      MaterialSearchTerms[materialType]
    else materialType
  }

  /** The client's term table is the Home Depot column of the vendor layer's
      table: both routes to Home Depot search for the same phrase. */
  lemma SearchTermAgreesWithVendorTable(materialType: string)
    ensures SearchTerm(materialType) == QueryMapper.GetSearchQuery(materialType, "home-depot")
  {
    assert materialType in MaterialSearchTerms <==> QueryMapper.HasPhrase(materialType, "home-depot");
  }

  /** The optional parameters, each carried only when its value is truthy. */
  function OptionalParams(p: HomeDepotSearchParams): QueryParams {
    OptionalParam(HdSort, p.hdSort)
    + (OptionalParam(DeliveryZip, p.deliveryZip)
    + (NumberParam(LowerBound, p.lowerbound)
    + (NumberParam(UpperBound, p.upperbound)
    + NumberParam(Page, p.page))))
  }

  /** The query parameters of the client's SerpAPI request, in the order the
      object literal of `searchHomeDepotProducts` lists them. */
  function RequestQuery(apiKey: string, p: HomeDepotSearchParams): QueryParams {
    RequiredParams(apiKey, p.q, Or(p.country, "us"))
    + (OptionalParams(p) + NumberParam(PageSize, p.ps))
  }

  /** Each optional parameter is found exactly when its value is truthy,
      and only optional names occur. */
  lemma OptionalParamsShape(p: HomeDepotSearchParams)
    ensures var qp := OptionalParams(p);
      && Lookup(qp, HdSort) == (if Truthy(p.hdSort) then p.hdSort else None)
      && Lookup(qp, DeliveryZip) == (if Truthy(p.deliveryZip) then p.deliveryZip else None)
      && Lookup(qp, LowerBound) == (if TruthyNumber(p.lowerbound) then Some(IntToString(p.lowerbound.value)) else None)
      && Lookup(qp, UpperBound) == (if TruthyNumber(p.upperbound) then Some(IntToString(p.upperbound.value)) else None)
      && Lookup(qp, Page) == (if TruthyNumber(p.page) then Some(IntToString(p.page.value)) else None)
      && NamesIn(qp, {HdSort, DeliveryZip, LowerBound, UpperBound, Page})
      && DistinctNames(qp)
  {
    var sort := OptionalParam(HdSort, p.hdSort);
    var zip := OptionalParam(DeliveryZip, p.deliveryZip);
    var lo := NumberParam(LowerBound, p.lowerbound);
    var hi := NumberParam(UpperBound, p.upperbound);
    var page := NumberParam(Page, p.page);
    assert Single(sort, HdSort) && Single(zip, DeliveryZip) && Single(lo, LowerBound);
    assert Single(hi, UpperBound) && Single(page, Page);
    LookupFiveSegments(sort, zip, lo, hi, page, HdSort, DeliveryZip, LowerBound, UpperBound, Page);
    FiveSegmentsNames(sort, zip, lo, hi, page, HdSort, DeliveryZip, LowerBound, UpperBound, Page);
  }

  /** After the required parameters: the optional ones, then the page size,
      each found exactly when its value is truthy. */
  lemma TailShape(p: HomeDepotSearchParams)
    ensures var tail := OptionalParams(p) + NumberParam(PageSize, p.ps);
      && Lookup(tail, HdSort) == (if Truthy(p.hdSort) then p.hdSort else None)
      && Lookup(tail, DeliveryZip) == (if Truthy(p.deliveryZip) then p.deliveryZip else None)
      && Lookup(tail, LowerBound) == (if TruthyNumber(p.lowerbound) then Some(IntToString(p.lowerbound.value)) else None)
      && Lookup(tail, UpperBound) == (if TruthyNumber(p.upperbound) then Some(IntToString(p.upperbound.value)) else None)
      && Lookup(tail, Page) == (if TruthyNumber(p.page) then Some(IntToString(p.page.value)) else None)
      && Lookup(tail, PageSize) == (if TruthyNumber(p.ps) then Some(IntToString(p.ps.value)) else None)
      && NamesIn(tail, TailNames)
      && DistinctNames(tail)
  {
    var opt := OptionalParams(p);
    var ps := NumberParam(PageSize, p.ps);
    OptionalParamsShape(p);
    assert Single(ps, PageSize);
    DistinctAppend(opt, ps, {HdSort, DeliveryZip, LowerBound, UpperBound, Page}, {PageSize});
    LookupBeforeSingle(opt, ps, PageSize, HdSort);
    LookupBeforeSingle(opt, ps, PageSize, DeliveryZip);
    LookupBeforeSingle(opt, ps, PageSize, LowerBound);
    LookupBeforeSingle(opt, ps, PageSize, UpperBound);
    LookupBeforeSingle(opt, ps, PageSize, Page);
    NamesAvoid(opt, {HdSort, DeliveryZip, LowerBound, UpperBound, Page}, PageSize);
    LookupPast(opt, ps, PageSize);
    assert NamesIn(ps, {PageSize});
  }

  /** The request always names the engine, key, query and output format,
      defaults the country to `us`, and carries each optional parameter
      exactly when its value is truthy (so `0` and `""` are left out). */
  lemma RequestQueryShape(apiKey: string, p: HomeDepotSearchParams)
    ensures var qp := RequestQuery(apiKey, p);
      && Lookup(qp, Engine) == Some("home_depot")
      && Lookup(qp, ApiKey) == Some(apiKey)
      && Lookup(qp, Q) == Some(p.q)
      && Lookup(qp, Country) == Some(if Truthy(p.country) then p.country.value else "us")
      && Lookup(qp, Output) == Some("json")
      && Lookup(qp, HdSort) == (if Truthy(p.hdSort) then p.hdSort else None)
      && Lookup(qp, DeliveryZip) == (if Truthy(p.deliveryZip) then p.deliveryZip else None)
      && Lookup(qp, LowerBound) == (if TruthyNumber(p.lowerbound) then Some(IntToString(p.lowerbound.value)) else None)
      && Lookup(qp, UpperBound) == (if TruthyNumber(p.upperbound) then Some(IntToString(p.upperbound.value)) else None)
      && Lookup(qp, Page) == (if TruthyNumber(p.page) then Some(IntToString(p.page.value)) else None)
      && Lookup(qp, PageSize) == (if TruthyNumber(p.ps) then Some(IntToString(p.ps.value)) else None)
      && DistinctNames(qp)
  {
    var req := RequiredParams(apiKey, p.q, Or(p.country, "us"));
    var tail := OptionalParams(p) + NumberParam(PageSize, p.ps);
    TailShape(p);
    RequiredFirst(apiKey, p.q, Or(p.country, "us"), tail);
    RequestTailLookups(apiKey, p);
    assert NamesIn(req, RequiredNames);
    DistinctAppend(req, tail, RequiredNames, TailNames);
  }

  /** The optional parameters and the page size are looked up past the
      required ones. */
  lemma RequestTailLookups(apiKey: string, p: HomeDepotSearchParams)
    ensures var qp := RequestQuery(apiKey, p);
      var tail := OptionalParams(p) + NumberParam(PageSize, p.ps);
      && Lookup(qp, HdSort) == Lookup(tail, HdSort)
      && Lookup(qp, DeliveryZip) == Lookup(tail, DeliveryZip)
      && Lookup(qp, LowerBound) == Lookup(tail, LowerBound)
      && Lookup(qp, UpperBound) == Lookup(tail, UpperBound)
      && Lookup(qp, Page) == Lookup(tail, Page)
      && Lookup(qp, PageSize) == Lookup(tail, PageSize)
  {
    var tail := OptionalParams(p) + NumberParam(PageSize, p.ps);
    var country := Or(p.country, "us");
    RequiredPast(apiKey, p.q, country, tail, HdSort);
    RequiredPast(apiKey, p.q, country, tail, DeliveryZip);
    RequiredPast(apiKey, p.q, country, tail, LowerBound);
    RequiredPast(apiKey, p.q, country, tail, UpperBound);
    RequiredPast(apiKey, p.q, country, tail, Page);
    RequiredPast(apiKey, p.q, country, tail, PageSize);
  }

  /** One upstream record as this client reports it: missing title, price
      and product id become the empty string. */
  function ToHomeDepotProduct(u: UpstreamProduct): HomeDepotProduct {
    HomeDepotProduct(
      title := Or(u.title, ""),
      price := Or(u.price, ""),
      productId := Or(u.productId, ""),
      rating := u.rating,
      reviews := u.reviews,
      brand := u.brand,
      deliveryOptions := u.deliveryOptions,
      storeAvailability := u.storeAvailability,
      image := u.thumbnail,
      url := u.link)
  }

  /** The empty string read back as an absent field. */
  function Present(s: string): Option<string> {
    if s == "" then None else Some(s)
  }

  /** The record an upstream product is recovered as from its translation. */
  function ToUpstream(p: HomeDepotProduct): UpstreamProduct {
    UpstreamProduct(
      productId := Present(p.productId),
      title := Present(p.title),
      price := Present(p.price),
      brand := p.brand,
      rating := p.rating,
      reviews := p.reviews,
      thumbnail := p.image,
      link := p.url,
      deliveryOptions := p.deliveryOptions,
      storeAvailability := p.storeAvailability)
  }

  /** An upstream record with empty id, title and price read as absent. */
  function Normalize(u: UpstreamProduct): UpstreamProduct {
    u.(productId := Present(Or(u.productId, "")), title := Present(Or(u.title, "")), price := Present(Or(u.price, "")))
  }

  /** The translation loses nothing but the difference between an absent
      and an empty id, title or price. */
  lemma ToHomeDepotProductRoundTrip(u: UpstreamProduct)
    ensures ToUpstream(ToHomeDepotProduct(u)) == Normalize(u)
  {
  }

  /** `searchHomeDepotProducts(params)`: never fails; a missing key, a
      network failure, a non-ok status or an unparsable body yield no
      products and an error, a delivered payload yields one product per
      upstream record (none when the payload has no product list) and no
      error. */
  function SearchHomeDepotProducts(p: HomeDepotSearchParams, env: Env, fetch: Fetcher): (r: HomeDepotSearchResponse)
    ensures r.error.Some? ==> r.products == [] && r.totalResults == None
    ensures SerpApiKey(env).None? ==> r.error == Some(MissingKeyMessage)
    ensures r.error.None? <==> SerpApiKey(env).Some? && Delivered(fetch(RequestQuery(SerpApiKey(env).value, p)))
    ensures SerpApiKey(env).Some? ==>
              var outcome := fetch(RequestQuery(SerpApiKey(env).value, p));
              && (outcome.NetworkFailure? ==> r.error == Some(outcome.message))
              && (outcome.Response? && !IsOk(outcome.status) ==>
                    r.error == Some("API request failed: " + IntToString(outcome.status) + " " + outcome.statusText))
              && (outcome.Response? && IsOk(outcome.status) && outcome.body.Unparsable? ==>
                    r.error == Some(outcome.body.message))
    ensures r.error.None? ==>
              var data := fetch(RequestQuery(SerpApiKey(env).value, p)).body.data;
              && |r.products| == |data.products.GetOr([])|
              && (forall i :: 0 <= i < |r.products| ==> r.products[i] == ToHomeDepotProduct(data.products.GetOr([])[i]))
              && r.totalResults == data.totalResults
  {
    var key := SerpApiKey(env);
    if key.None? then HomeDepotSearchResponse([], None, Some(MissingKeyMessage))
    else
      match fetch(RequestQuery(key.value, p))
      case NetworkFailure(message) => HomeDepotSearchResponse([], None, Some(message))
      case Response(status, statusText, body) =>
        if !IsOk(status) then
          HomeDepotSearchResponse([], None, Some("API request failed: " + IntToString(status) + " " + statusText))
        else
          match body
          case Unparsable(message) => HomeDepotSearchResponse([], None, Some(message))
          case Parsed(data) =>
            var items := data.products.GetOr([]);
            HomeDepotSearchResponse(seq(|items|, i requires 0 <= i < |items| => ToHomeDepotProduct(items[i])),
                                    data.totalResults, None)
  }

  /** The request record `searchConstructionMaterial` builds: the mapped
      term, the sort (defaulting to price ascending when not given), the
      location as delivery ZIP, and a page size of 24. */
  function ConstructionMaterialParams(materialType: string, location: Option<string>, sortBy: Option<string>)
    : HomeDepotSearchParams
  {
    HomeDepotSearchParams(
      q := SearchTerm(materialType),
      country := None,
      hdSort := Some(sortBy.GetOr("price_low_to_high")),
      deliveryZip := location,
      lowerbound := None,
      upperbound := None,
      page := None,
      ps := Some(24))
  }

  /** `searchConstructionMaterial(materialType, location, sortBy)`. */
  function SearchConstructionMaterial(materialType: string, location: Option<string>, sortBy: Option<string>,
                                      env: Env, fetch: Fetcher): HomeDepotSearchResponse
  {
    SearchHomeDepotProducts(ConstructionMaterialParams(materialType, location, sortBy), env, fetch)
  }

  /** What the material search sends: the mapped term, country `us`, the
      given sort or `price_low_to_high` when none is given (an empty sort is
      dropped), the location as delivery ZIP when truthy, and `ps=24`. */
  lemma ConstructionMaterialRequest(apiKey: string, materialType: string, location: Option<string>, sortBy: Option<string>)
    ensures var qp := RequestQuery(apiKey, ConstructionMaterialParams(materialType, location, sortBy));
      && Lookup(qp, Q) == Some(if materialType in MaterialSearchTerms then MaterialSearchTerms[materialType] else materialType)
      && Lookup(qp, Country) == Some("us")
      && Lookup(qp, HdSort) == (if sortBy.None? then Some("price_low_to_high")
                                else if sortBy.value == "" then None else sortBy)
      && Lookup(qp, DeliveryZip) == (if Truthy(location) then location else None)
      && Lookup(qp, LowerBound) == None && Lookup(qp, UpperBound) == None && Lookup(qp, Page) == None
      && Lookup(qp, PageSize) == Some("24")
  {
    RequestQueryShape(apiKey, ConstructionMaterialParams(materialType, location, sortBy));
    assert IntToString(24) == "24";
  }
}

=== FILE: js.dfy ===
/** The few JavaScript built-ins the search core leans on: truthiness of
    optional strings and numbers, `String.prototype.split` on one character,
    and `Number.prototype.toString` for integers. */
module Js {
  import opened Wrappers

  /** `!!s` for a value typed `string | undefined`: the empty string is falsy. */
  predicate Truthy(s: Option<string>) {
    s.Some? && s.value != ""
  }

  /** `!!n` for a value typed `number | undefined`: zero is falsy. */
  predicate TruthyNumber(n: Option<int>) {
    n.Some? && n.value != 0
  }

  /** `s || fallback` for an optional string. */
  function Or(s: Option<string>, fallback: string): (r: string)
    ensures Truthy(s) ==> r == s.value
    ensures !Truthy(s) ==> r == fallback
  {
    if Truthy(s) then s.value else fallback
  }

  // ---------------------------------------------------------------------------
  // Decimal digits

  predicate IsDigit(c: char) {
    '0' <= c <= '9'
  }

  predicate AllDigits(s: string) {
    forall i :: 0 <= i < |s| ==> IsDigit(s[i])
  }

  function DigitValue(c: char): (d: nat)
    requires IsDigit(c)
    ensures d < 10
  {
    (c as int - '0' as int) as nat
  }

  function DigitChar(d: nat): (c: char)
    requires d < 10
    ensures IsDigit(c) && DigitValue(c) == d
  {
    (d + '0' as int) as char
  }

  /** The number a string of decimal digits denotes (most significant first). */
  function DigitsValue(s: string): nat
    requires AllDigits(s)
  {
    if |s| == 0 then 0 else 10 * DigitsValue(s[..|s| - 1]) + DigitValue(s[|s| - 1])
  }

  /** `n.toString()` for a non-negative integer: shortest decimal spelling. */
  function NatToString(n: nat): (s: string)
    ensures |s| >= 1 && AllDigits(s)
    ensures |s| > 1 ==> s[0] != '0'
    decreases n
  {
    if n < 10 then [DigitChar(n)] else NatToString(n / 10) + [DigitChar(n % 10)]
  }

  /** Reading back the decimal spelling of `n` gives `n`. */
  lemma {:induction false} NatToStringRoundTrip(n: nat)
    ensures DigitsValue(NatToString(n)) == n
    decreases n
  {
    var s := NatToString(n);
    if n < 10 {
      assert s[..|s| - 1] == [];
    } else {
      NatToStringRoundTrip(n / 10);
      assert s[..|s| - 1] == NatToString(n / 10);
    }
  }

  /** `n.toString()` for an integer that may be negative. */
  function IntToString(n: int): (s: string)
    ensures |s| >= 1
    ensures s[0] == '-' <==> n < 0
    ensures n < 0 ==> AllDigits(s[1..]) && DigitsValue(s[1..]) == -n
    ensures n >= 0 ==> AllDigits(s) && DigitsValue(s) == n
    ensures n >= 0 && |s| > 1 ==> s[0] != '0'
    ensures n < 0 ==> |s| >= 2 && (|s| > 2 ==> s[1] != '0')
  {
    if n < 0 then
      NatToStringRoundTrip(-n);
      var s := "-" + NatToString(-n);
      assert s[1..] == NatToString(-n);
      s
    else
      NatToStringRoundTrip(n);
      NatToString(n)
  }

  // ---------------------------------------------------------------------------
  // String.prototype.split with a one-character separator

  /** Joins the parts back, putting `sep` between neighbours. */
  function Join(parts: seq<string>, sep: char): string
    requires |parts| >= 1
  {
    if |parts| == 1 then parts[0] else parts[0] + [sep] + Join(parts[1..], sep)
  }

  /** `s.split(sep)`: always at least one part (`"".split(",")` is `[""]`),
      no part holds the separator, and joining the parts gives `s` back. */
  function Split(s: string, sep: char): (parts: seq<string>)
    ensures |parts| >= 1
    ensures forall i :: 0 <= i < |parts| ==> sep !in parts[i]
    ensures Join(parts, sep) == s
  {
    if |s| == 0 then [""]
    else
      var rest := Split(s[1..], sep);
      if s[0] == sep then
        assert [""] + rest == [""] + rest;
        assert s == [sep] + s[1..];
        [""] + rest
      else
        var parts := [[s[0]] + rest[0]] + rest[1..];
        JoinConsFirst(s[0], rest, sep);
        assert s == [s[0]] + s[1..];
        parts
  }

  /** Prepending a character to the first part prepends it to the join. */
  lemma JoinConsFirst(c: char, parts: seq<string>, sep: char)
    requires |parts| >= 1
    ensures Join([[c] + parts[0]] + parts[1..], sep) == [c] + Join(parts, sep)
  {
    var q := [[c] + parts[0]] + parts[1..];
    if |parts| > 1 {
      assert q[1..] == parts[1..];
    }
  }

  /** Split is the inverse of Join on separator-free parts: the two together
      are a bijection between strings and non-empty lists of such parts. */
  lemma {:induction false} SplitJoin(parts: seq<string>, sep: char)
    requires |parts| >= 1
    requires forall i :: 0 <= i < |parts| ==> sep !in parts[i]
    ensures Split(Join(parts, sep), sep) == parts
    decreases parts
  {
    if |parts| == 1 {
      SplitNoSep(parts[0], sep);
    } else {
      SplitJoin(parts[1..], sep);
      SplitPrefix(parts[0], Join(parts[1..], sep), sep);
      assert parts == [parts[0]] + parts[1..];
    }
  }

  lemma {:induction false} SplitNoSep(s: string, sep: char)
    requires sep !in s
    ensures Split(s, sep) == [s]
    decreases |s|
  {
    if |s| > 0 {
      assert sep !in s[1..] by {
        forall k | 0 <= k < |s[1..]| ensures s[1..][k] != sep { assert s[1..][k] == s[k + 1]; }
      }
      SplitNoSep(s[1..], sep);
      assert [s[0]] + s[1..] == s;
    }
  }

  lemma {:induction false} SplitPrefix(a: string, b: string, sep: char)
    requires sep !in a
    ensures Split(a + [sep] + b, sep) == [a] + Split(b, sep)
    decreases |a|
  {
    var s := a + [sep] + b;
    if |a| == 0 {
      assert s[1..] == b;
    } else {
      assert s[1..] == a[1..] + [sep] + b;
      assert sep !in a[1..] by {
        forall k | 0 <= k < |a[1..]| ensures a[1..][k] != sep { assert a[1..][k] == a[k + 1]; }
      }
      SplitPrefix(a[1..], b, sep);
      assert [a[0]] + a[1..] == a;
    }
  }
}

=== FILE: price.dfy ===
/** The sort key the search route derives from a display price: every
    character other than a digit or a dot is deleted, the rest is read the
    way `parseFloat` reads it, and anything unreadable counts as 0. */
module Price {
  import opened Wrappers
  import opened Js
  import Seqs

  predicate IsPriceChar(c: char) {
    IsDigit(c) || c == '.'
  }

  /** `price.replace(/[^0-9.]/g, '')`: the digits and dots of the price, in order. */
  function StripToNumeric(price: string): string {
    if |price| == 0 then ""
    else (if IsPriceChar(price[0]) then [price[0]] else []) + StripToNumeric(price[1..])
  }

  /** Stripping is filtering by `IsPriceChar`. */
  lemma {:induction false} StripIsFilter(price: string)
    ensures StripToNumeric(price) == Seqs.Filter(price, IsPriceChar)
  {
    if |price| > 0 {
      var c := price[0];
      assert price == [c] + price[1..];
      StripIsFilter(price[1..]);
      Seqs.FilterAppend([c], price[1..], IsPriceChar);
      Seqs.FilterSnoc([], c, IsPriceChar);
      assert [] + [c] == [c];
    }
  }

  /** Stripping keeps exactly the digits and dots of the price. */
  lemma StripMembership(price: string, c: char)
    ensures c in StripToNumeric(price) <==> c in price && IsPriceChar(c)
  {
    StripIsFilter(price);
    Seqs.FilterMembership(price, IsPriceChar, c);
  }

  /** The number of leading decimal digits. */
  function LeadingDigits(s: string): (n: nat)
    ensures n <= |s| && AllDigits(s[..n])
    ensures n < |s| ==> !IsDigit(s[n])
  {
    if |s| == 0 || !IsDigit(s[0]) then 0
    else
      var n := 1 + LeadingDigits(s[1..]);
      assert forall k :: 1 <= k < n ==> s[..n][k] == s[1..][..n - 1][k - 1];
      n
  }

  /** The decimal fraction `0.d1d2…dn` spelled by the digits after a dot. */
  function Fraction(digits: string): (r: real)
    requires AllDigits(digits)
    ensures 0.0 <= r < 1.0
  {
    if |digits| == 0 then 0.0
    else (DigitValue(digits[0]) as real + Fraction(digits[1..])) / 10.0
  }

  /** `parseFloat` of a string of digits and dots: the longest prefix of the
      form `digits[.digits]` that holds at least one digit, or nothing (NaN). */
  function ParseFloatPrefix(t: string): (r: Option<real>)
    ensures r.Some? ==> r.value >= 0.0
    ensures r.None? <==> (|t| == 0 || !IsDigit(t[0])) && (|t| < 2 || t[0] != '.' || !IsDigit(t[1]))
  {
    var i := LeadingDigits(t);
    var fraction := FractionDigits(t[i..]);
    if i == 0 && |fraction| == 0 then None
    else Some(DigitsValue(t[..i]) as real + Fraction(fraction))
  }

  /** The digits after a leading dot, if the text starts with one. */
  function FractionDigits(s: string): (f: string)
    ensures AllDigits(f)
    ensures |f| > 0 ==> |s| >= 2 && s[0] == '.' && IsDigit(s[1])
    ensures |s| >= 2 && s[0] == '.' && IsDigit(s[1]) ==> |f| > 0
  {
    if |s| > 0 && s[0] == '.' then s[1..][..LeadingDigits(s[1..])] else ""
  }

  /** `parseFloat(price.replace(/[^0-9.]/g, '')) || 0`, with exact
      arithmetic: never negative, and 0 for a price with no digit. */
  function PriceKey(price: string): (k: real)
    ensures k >= 0.0
  {
    match ParseFloatPrefix(StripToNumeric(price))
    case None => 0.0
    case Some(v) => v
  }

  /** A price without a single digit sorts as 0. */
  lemma PriceKeyNoDigits(price: string)
    requires forall i :: 0 <= i < |price| ==> !IsDigit(price[i])
    ensures PriceKey(price) == 0.0
  {
    var t := StripToNumeric(price);
    if |t| > 0 {
      StripMembership(price, t[0]);
    }
    if |t| > 1 {
      StripMembership(price, t[1]);
    }
  }

  /** Deleting the characters the key ignores does not change the key. */
  lemma PriceKeyIgnoresOtherChars(price: string)
    ensures PriceKey(StripToNumeric(price)) == PriceKey(price)
  {
    var t := StripToNumeric(price);
    forall i | 0 <= i < |t| ensures IsPriceChar(t[i]) {
      StripMembership(price, t[i]);
    }
    StripKeeps(t);
  }

  /** Stripping leaves a string of digits and dots unchanged. */
  lemma {:induction false} StripKeeps(t: string)
    requires forall i :: 0 <= i < |t| ==> IsPriceChar(t[i])
    ensures StripToNumeric(t) == t
    decreases |t|
  {
    if |t| > 0 {
      StripKeeps(t[1..]);
    }
  }

  /** Stripping a concatenation strips each part. */
  lemma {:induction false} StripAppend(a: string, b: string)
    ensures StripToNumeric(a + b) == StripToNumeric(a) + StripToNumeric(b)
    decreases |a|
  {
    if |a| > 0 {
      assert (a + b)[1..] == a[1..] + b;
      StripAppend(a[1..], b);
    } else {
      assert a + b == b;
    }
  }

  /** Leading digits of a digit run followed by a non-digit. */
  lemma {:induction false} LeadingDigitsOf(a: string, b: string)
    requires AllDigits(a)
    requires |b| == 0 || !IsDigit(b[0])
    ensures LeadingDigits(a + b) == |a|
    decreases |a|
  {
    if |a| > 0 {
      assert (a + b)[0] == a[0] && IsDigit(a[0]);
      assert (a + b)[1..] == a[1..] + b;
      assert AllDigits(a[1..]);
      LeadingDigitsOf(a[1..], b);
    } else {
      assert a + b == b;
    }
  }

  /** The two-digit spelling of a cent amount. */
  function Cents(c: nat): (s: string)
    requires c < 100
    ensures |s| == 2 && AllDigits(s) && DigitsValue(s) == c
    ensures Fraction(s) == c as real / 100.0
  {
    var s := [DigitChar(c / 10), DigitChar(c % 10)];
    assert s[..1] == [DigitChar(c / 10)];
    assert s[..1][..0] == [];
    assert DigitsValue(s[..1]) == c / 10;
    assert s[1..] == [DigitChar(c % 10)] && s[1..][1..] == [];
    assert Fraction(s[1..]) == (c % 10) as real / 10.0;
    s
  }

  /** A price as a store displays it: `$<dollars>.<cc>`. */
  function DisplayPrice(dollars: nat, cents: nat): string
    requires cents < 100
  {
    "$" + (NatToString(dollars) + "." + Cents(cents))
  }

  /** `parseFloat` of `<digits>.<digits>` followed by something that is not
      a digit: the integer part plus the fraction. */
  lemma DecimalPrefix(d: string, f: string, rest: string)
    requires |d| >= 1 && AllDigits(d) && AllDigits(f)
    requires |rest| == 0 || !IsDigit(rest[0])
    ensures ParseFloatPrefix(d + "." + f + rest) == Some(DigitsValue(d) as real + Fraction(f))
  {
    var t := d + "." + f + rest;
    DecimalSplit(d, f, rest);
    FractionDigitsOf(f, rest);
    ParseSplit(t, d, f);
  }

  /** Where the integer digits of `<digits>.<digits><rest>` end. */
  lemma DecimalSplit(d: string, f: string, rest: string)
    requires AllDigits(d)
    ensures var t := d + "." + f + rest;
      && LeadingDigits(t) == |d| && t[..|d|] == d && t[|d|..] == ['.'] + (f + rest)
  {
    var after := ['.'] + (f + rest);
    var t := d + after;
    assert d + "." + f + rest == t;
    LeadingDigitsOf(d, after);
    assert t[..|d|] == d;
    assert t[|d|..] == after;
  }

  /** The reading of a text whose integer digits and fraction digits are known. */
  lemma ParseSplit(t: string, d: string, f: string)
    requires AllDigits(d) && AllDigits(f) && |d| >= 1
    requires LeadingDigits(t) == |d| && t[..|d|] == d && FractionDigits(t[|d|..]) == f
    ensures ParseFloatPrefix(t) == Some(DigitsValue(d) as real + Fraction(f))
  {
  }

  lemma FractionDigitsOf(f: string, rest: string)
    requires AllDigits(f)
    requires |rest| == 0 || !IsDigit(rest[0])
    ensures FractionDigits(['.'] + (f + rest)) == f
  {
    var after := ['.'] + (f + rest);
    assert after[1..] == f + rest;
    LeadingDigitsOf(f, rest);
    assert (f + rest)[..|f|] == f;
  }

  /** `parseFloat` of a text of digits alone (no dot): the integer itself. */
  lemma {:induction false} IntegerPrefix(d: string)
    requires |d| >= 1 && AllDigits(d)
    ensures ParseFloatPrefix(d) == Some(DigitsValue(d) as real)
  {
    var rest: string := "";
    assert d + rest == d;
    LeadingDigitsOf(d, rest);
    assert d[..|d|] == d;
    assert d[|d|..] == rest;
    NoFraction(rest);
    ParseSplit(d, d, "");
    assert Fraction("") == 0.0;
  }

  /** Text that does not start with a dot has no fraction digits. */
  lemma NoFraction(rest: string)
    requires |rest| == 0 || rest[0] != '.'
    ensures FractionDigits(rest) == ""
  {
  }

  /** `parseFloat` of a leading dot and its digits: the fraction alone. */
  lemma FractionPrefix(f: string, rest: string)
    requires |f| >= 1 && AllDigits(f)
    requires |rest| == 0 || !IsDigit(rest[0])
    ensures ParseFloatPrefix("." + f + rest) == Some(Fraction(f))
  {
    var t := ['.'] + (f + rest);
    assert "." + f + rest == t;
    FractionDigitsOf(f, rest);
    ParseFractionOnly(t, f);
  }

  /** A price whose stripped form is a run of digits, such as `$1,299` or
      `24 lb`, sorts as that integer. */
  lemma IntegerKey(price: string, d: string)
    requires |d| >= 1 && AllDigits(d)
    requires StripToNumeric(price) == d
    ensures PriceKey(price) == DigitsValue(d) as real
  {
    IntegerPrefix(d);
  }

  /** A price whose stripped form starts with a dot and digits, such as
      `.75`, sorts as that fraction. */
  lemma FractionKey(price: string, f: string, rest: string)
    requires |f| >= 1 && AllDigits(f)
    requires |rest| == 0 || !IsDigit(rest[0])
    requires StripToNumeric(price) == "." + f + rest
    ensures PriceKey(price) == Fraction(f)
  {
    FractionPrefix(f, rest);
  }

  /** The reading of a text with no integer digits whose fraction digits are known. */
  lemma ParseFractionOnly(t: string, f: string)
    requires |t| > 0 && t[0] == '.'
    requires |f| >= 1 && AllDigits(f) && FractionDigits(t) == f
    ensures ParseFloatPrefix(t) == Some(Fraction(f))
  {
    assert LeadingDigits(t) == 0;
    assert t[0..] == t && t[..0] == [];
  }

  /** A string of digits and dots is its own stripped form. */
  lemma StripDecimal(d: string, f: string)
    requires AllDigits(d) && AllDigits(f)
    ensures StripToNumeric(d + "." + f) == d + "." + f
  {
    var t := d + "." + f;
    forall i | 0 <= i < |t| ensures IsPriceChar(t[i]) {
      if i < |d| { assert t[i] == d[i]; }
      else if i > |d| { assert t[i] == f[i - |d| - 1]; }
    }
    StripKeeps(t);
  }

  /** A dollar sign is dropped. */
  lemma StripDollar(t: string)
    ensures StripToNumeric("$" + t) == StripToNumeric(t)
  {
    assert ("$" + t)[1..] == t;
  }

  /** The key of a price whose stripped form is `<d>.<f><rest>`. */
  lemma DecimalKey(price: string, d: string, f: string, rest: string)
    requires |d| >= 1 && AllDigits(d) && AllDigits(f)
    requires |rest| == 0 || !IsDigit(rest[0])
    requires StripToNumeric(price) == d + "." + f + rest
    ensures PriceKey(price) == DigitsValue(d) as real + Fraction(f)
  {
    DecimalPrefix(d, f, rest);
  }

  /** The usual display price `$<dollars>.<cc>` sorts by its exact amount. */
  lemma FormattedPriceKey(dollars: nat, cents: nat)
    requires cents < 100
    ensures PriceKey(DisplayPrice(dollars, cents)) == dollars as real + cents as real / 100.0
  {
    var d := NatToString(dollars);
    var cc := Cents(cents);
    var t := d + "." + cc;
    assert DisplayPrice(dollars, cents) == "$" + t;
    StripDollar(t);
    StripDecimal(d, cc);
    assert t + "" == t;
    DecimalKey("$" + t, d, cc, "");
    NatToStringRoundTrip(dollars);
  }

  /** A whole-dollar price `$<dollars>` sorts by its amount. */
  lemma WholeDollarKey(dollars: nat)
    ensures PriceKey("$" + NatToString(dollars)) == dollars as real
  {
    var d := NatToString(dollars);
    StripDollar(d);
    StripKeeps(d);
    LeadingDigitsOf(d, "");
    assert d + "" == d;
    assert d[|d|..] == "";
    assert d[..|d|] == d;
    NatToStringRoundTrip(dollars);
  }

  /** A thousands separator is ignored: `$1,299.00` sorts as 1299. */
  lemma GroupedPriceKey(thousands: string, rest: string, cents: nat)
    requires |thousands| >= 1 && AllDigits(thousands) && AllDigits(rest)
    requires cents < 100
    ensures AllDigits(thousands + rest)
    ensures PriceKey("$" + thousands + "," + rest + "." + Cents(cents))
         == DigitsValue(thousands + rest) as real + cents as real / 100.0
  {
    var cc := Cents(cents);
    var d := thousands + rest;
    DigitsAppend(thousands, rest);
    GroupedStrip(thousands, rest, cc);
    DecimalKey("$" + thousands + "," + rest + "." + cc, d, cc, "");
  }

  /** Two digit runs joined are a digit run. */
  lemma DigitsAppend(a: string, b: string)
    requires AllDigits(a) && AllDigits(b)
    ensures AllDigits(a + b)
  {
    var d := a + b;
    forall i | 0 <= i < |d| ensures IsDigit(d[i]) {
      if i < |a| { assert d[i] == a[i]; } else { assert d[i] == b[i - |a|]; }
    }
  }

  /** The stripped form of a grouped display price. */
  lemma GroupedStrip(thousands: string, rest: string, cc: string)
    requires AllDigits(thousands) && AllDigits(rest) && AllDigits(cc)
    ensures StripToNumeric("$" + thousands + "," + rest + "." + cc) == thousands + rest + "." + cc + ""
  {
    var price := "$" + thousands + "," + rest + "." + cc;
    StripGrouped(thousands, rest + "." + cc);
    assert price == "$" + thousands + "," + (rest + "." + cc);
    StripDecimal(rest, cc);
    assert thousands + (rest + "." + cc) == thousands + rest + "." + cc + "";
  }

  lemma StripGrouped(thousands: string, tail: string)
    requires AllDigits(thousands)
    ensures StripToNumeric("$" + thousands + "," + tail) == thousands + StripToNumeric(tail)
  {
    var x1 := "$" + thousands;
    var x2 := x1 + ",";
    StripIgnored("$");
    StripIgnored(",");
    StripDropLeft("$", thousands);
    StripDropRight(x1, ",");
    StripAppend(x2, tail);
    StripKeeps(thousands);
  }

  /** Stripping skips a leading part that strips to nothing. */
  lemma StripDropLeft(x: string, a: string)
    requires StripToNumeric(x) == ""
    ensures StripToNumeric(x + a) == StripToNumeric(a)
  {
    StripAppend(x, a);
    assert "" + StripToNumeric(a) == StripToNumeric(a);
  }

  /** Stripping skips a trailing part that strips to nothing. */
  lemma StripDropRight(a: string, x: string)
    requires StripToNumeric(x) == ""
    ensures StripToNumeric(a + x) == StripToNumeric(a)
  {
    StripAppend(a, x);
    assert StripToNumeric(a) + "" == StripToNumeric(a);
  }

  /** A string with no digit and no dot strips to nothing. */
  lemma {:induction false} StripIgnored(s: string)
    requires forall i :: 0 <= i < |s| ==> !IsPriceChar(s[i])
    ensures StripToNumeric(s) == ""
    decreases |s|
  {
    if |s| > 0 {
      StripIgnored(s[1..]);
    }
  }

  /** A price range `<low> - <high>` reads as the low figure with the high
      figure's dollar digits run into its cents. */
  lemma PriceRangeKey(low: nat, lowCents: nat, high: nat, highCents: nat)
    requires lowCents < 100 && highCents < 100
    ensures PriceKey(DisplayPrice(low, lowCents) + " - " + DisplayPrice(high, highCents))
         == low as real + Fraction(Cents(lowCents) + NatToString(high))
  {
    var d1, c1 := NatToString(low), Cents(lowCents);
    var d2, c2 := NatToString(high), Cents(highCents);
    var price := DisplayPrice(low, lowCents) + " - " + DisplayPrice(high, highCents);
    var f := c1 + d2;
    StripRangeDigits(d1, c1, d2, c2);
    assert AllDigits(f);
    DecimalKey(price, d1, f, "." + c2);
    NatToStringRoundTrip(low);
  }

  /** The stripped form of a range of two display prices: the low figure,
      its dot, its cents run into the high figure's dollars, then the high
      figure's dot and cents. */
  lemma StripRangeDigits(d1: string, c1: string, d2: string, c2: string)
    requires AllDigits(d1) && AllDigits(c1) && AllDigits(d2) && AllDigits(c2)
    ensures StripToNumeric("$" + (d1 + "." + c1) + " - " + ("$" + (d2 + "." + c2)))
         == d1 + "." + (c1 + d2) + ("." + c2)
  {
    var a := d1 + "." + c1;
    var b := d2 + "." + c2;
    StripRange(a, b);
    StripDecimal(d1, c1);
    StripDecimal(d2, c2);
    Regroup(d1, ".", c1, d2, ".", c2);
  }

  /** The dollar signs and the dash of a range are dropped. */
  lemma StripRange(a: string, b: string)
    ensures StripToNumeric("$" + a + " - " + ("$" + b)) == StripToNumeric(a) + StripToNumeric(b)
  {
    var x1 := "$" + a;
    StripIgnored("$");
    StripIgnored(" - ");
    StripDropLeft("$", a);
    StripDropRight(x1, " - ");
    StripDropLeft("$", b);
    StripAppend(x1 + " - ", "$" + b);
  }

  lemma Regroup(p: string, q: string, r: string, s: string, u: string, v: string)
    ensures (p + q + r) + (s + u + v) == p + q + (r + s) + (u + v)
  {
  }

  /** The range `$10.00 - $20.00` sorts as 10.002. */
  lemma PriceRangeExample()
    ensures PriceKey(DisplayPrice(10, 0) + " - " + DisplayPrice(20, 0)) == 10.002
  {
    PriceRangeKey(10, 0, 20, 0);
    var f := Cents(0) + NatToString(20);
    assert NatToString(20) == "20";
    assert Cents(0) == "00";
    assert f == "0020";
    assert Fraction("0020") == 0.002 by {
      assert "0020"[1..] == "020" && "020"[1..] == "20" && "20"[1..] == "0" && "0"[1..] == "";
    }
  }
}

=== FILE: query_mapper.dfy ===
/** The static table of per-vendor search phrases for each material type,
    and the lookup that falls back to the material type itself. */
module QueryMapper {

  /** `materialSearchMappings`: material type, then vendor id, to phrase. */
  const MaterialSearchMappings: map<string, map<string, string>> := map[
    "concrete" := map["home-depot" := "concrete mix", "lowes" := "concrete mix", "menards" := "concrete mix", "local" := "concrete"],
    "steel" := map["home-depot" := "steel rebar", "lowes" := "steel rebar", "menards" := "steel rebar", "local" := "steel"],
    "cement" := map["home-depot" := "cement", "lowes" := "cement", "menards" := "cement", "local" := "cement"],
    "wood" := map["home-depot" := "lumber wood", "lowes" := "lumber wood", "menards" := "lumber wood", "local" := "lumber"],
    "brick" := map["home-depot" := "brick masonry", "lowes" := "brick masonry", "menards" := "brick masonry", "local" := "brick"],
    "glass" := map["home-depot" := "glass window", "lowes" := "glass window", "menards" := "glass window", "local" := "glass"]
  ]

  /** The table has an entry for the pair. */
  predicate HasPhrase(materialType: string, vendorId: string) {
    materialType in MaterialSearchMappings && vendorId in MaterialSearchMappings[materialType]
  }

  /** Every phrase in the table is non-empty, so `|| materialType` only ever
      fires for a missing entry. */
  lemma PhrasesNonEmpty(m: string, v: string)
    requires HasPhrase(m, v)
    ensures MaterialSearchMappings[m][v] != ""
  {
  }

  /** `getSearchQuery(materialType, vendorId)`: the table's phrase for the
      pair when there is one, the material type unchanged otherwise. */
  function GetSearchQuery(materialType: string, vendorId: string): (q: string)
    ensures HasPhrase(materialType, vendorId) ==> q == MaterialSearchMappings[materialType][vendorId]
    ensures !HasPhrase(materialType, vendorId) ==> q == materialType
  {
    if HasPhrase(materialType, vendorId) then
      var phrase := MaterialSearchMappings[materialType][vendorId];
      PhrasesNonEmpty(materialType, vendorId);
      if phrase != "" then phrase else materialType
    else materialType
  }
}

=== FILE: registry.dfy ===
/** The vendor manager: an insertion-ordered registry from vendor id to
    vendor, and the dispatcher that fans a search out to registered,
    available vendors and joins the results in order. */
module Registry {
  import opened Wrappers
  import opened Js
  import opened Upstream
  import opened Vendors
  import opened Seqs

  /** The manager's map, as (id, vendor) entries in insertion order. */
  datatype VendorManager = VendorManager(entries: seq<(string, Vendor)>)

  const Empty: VendorManager := VendorManager([])

  /** The ids, in registration order. */
  function Ids(m: VendorManager): seq<string> {
    seq(|m.entries|, i requires 0 <= i < |m.entries| => m.entries[i].0)
  }

  /** The vendors, in registration order (`Array.from(map.values())`). */
  function Registered(m: VendorManager): seq<Vendor> {
    seq(|m.entries|, i requires 0 <= i < |m.entries| => m.entries[i].1)
  }

  /** No id is registered twice, as in a JavaScript `Map`. */
  predicate Valid(m: VendorManager) {
    forall i, j :: 0 <= i < j < |m.entries| ==> m.entries[i].0 != m.entries[j].0
  }

  /** The position of the entry for `id`, if any. */
  function IndexOf(entries: seq<(string, Vendor)>, id: string): (r: Option<nat>)
    ensures r.Some? ==> r.value < |entries| && entries[r.value].0 == id
    ensures r.Some? ==> forall j :: 0 <= j < r.value ==> entries[j].0 != id
    ensures r.None? ==> forall j :: 0 <= j < |entries| ==> entries[j].0 != id
  {
    if |entries| == 0 then None
    else if entries[0].0 == id then Some(0)
    else
      match IndexOf(entries[1..], id)
      case None => None
      case Some(k) => Some(k + 1)
  }

  /** `getVendor(id)`: the vendor registered under `id`, or none. */
  function GetVendor(m: VendorManager, id: string): Option<Vendor> {
    match IndexOf(m.entries, id)
    case None => None
    case Some(i) => Some(m.entries[i].1)
  }

  /** Lookup finds a vendor exactly for registered ids, and the vendor it
      finds is registered under that id. */
  lemma GetVendorSpec(m: VendorManager, id: string)
    ensures GetVendor(m, id).Some? <==> id in Ids(m)
    ensures GetVendor(m, id).Some? ==> (id, GetVendor(m, id).value) in m.entries
  {
    match IndexOf(m.entries, id)
    case None =>
      assert forall j :: 0 <= j < |Ids(m)| ==> Ids(m)[j] != id;
    case Some(i) =>
      assert Ids(m)[i] == id;
  }

  /** In a valid manager, the vendor at each position is what its id finds. */
  lemma GetVendorAt(m: VendorManager, i: nat)
    requires Valid(m) && i < |m.entries|
    ensures GetVendor(m, m.entries[i].0) == Some(m.entries[i].1)
  {
    var r := IndexOf(m.entries, m.entries[i].0);
    assert r.Some?;
    assert r.value == i;
  }

  /** `addVendor(id, vendor)` (`Map.prototype.set`): a new id is appended, an
      existing id keeps its position and gets the new vendor. */
  function AddVendor(m: VendorManager, id: string, v: Vendor): (m': VendorManager)
    ensures GetVendor(m', id) == Some(v)
    ensures forall other :: other != id ==> GetVendor(m', other) == GetVendor(m, other)
    ensures id in Ids(m) ==> Ids(m') == Ids(m)
    ensures id !in Ids(m) ==> Ids(m') == Ids(m) + [id]
    ensures Valid(m) ==> Valid(m')
  {
    match IndexOf(m.entries, id)
    case None =>
      var m' := VendorManager(m.entries + [(id, v)]);
      assert id !in Ids(m) by {
        assert forall j :: 0 <= j < |Ids(m)| ==> Ids(m)[j] != id;
      }
      assert Ids(m') == Ids(m) + [id];
      assert IndexOf(m'.entries, id) == Some(|m.entries|) by {
        IndexOfAppend(m.entries, [(id, v)], id);
      }
      forall other | other != id
        ensures GetVendor(m', other) == GetVendor(m, other)
      {
        IndexOfAppend(m.entries, [(id, v)], other);
      }
      m'
    case Some(i) =>
      var m' := VendorManager(m.entries[i := (id, v)]);
      assert Ids(m)[i] == id;
      assert Ids(m') == Ids(m);
      assert IndexOf(m'.entries, id) == Some(i) by {
        IndexOfReplace(m.entries, i, v, id);
      }
      forall other | other != id
        ensures GetVendor(m', other) == GetVendor(m, other)
      {
        IndexOfReplace(m.entries, i, v, other);
      }
      m'
  }

  /** IndexOf finds the first entry with the id, and nothing when there is none. */
  lemma IndexOfFirst(entries: seq<(string, Vendor)>, id: string, i: nat)
    requires i < |entries| && entries[i].0 == id
    requires forall j :: 0 <= j < i ==> entries[j].0 != id
    ensures IndexOf(entries, id) == Some(i)
  {
  }

  lemma IndexOfAppend(a: seq<(string, Vendor)>, b: seq<(string, Vendor)>, id: string)
    ensures IndexOf(a + b, id) ==
              match IndexOf(a, id)
              case Some(i) => Some(i)
              case None => match IndexOf(b, id) case Some(j) => Some(|a| + j) case None => None
  {
    match IndexOf(a, id)
    case Some(i) =>
      IndexOfFirst(a + b, id, i);
    case None =>
      match IndexOf(b, id)
      case Some(j) =>
        IndexOfFirst(a + b, id, |a| + j);
      case None =>
        assert forall k :: 0 <= k < |a + b| ==> (a + b)[k].0 != id by {
          forall k | 0 <= k < |a + b| ensures (a + b)[k].0 != id {
            if k >= |a| { assert (a + b)[k] == b[k - |a|]; }
          }
        }
  }

  lemma IndexOfReplace(entries: seq<(string, Vendor)>, i: nat, v: Vendor, id: string)
    requires i < |entries|
    ensures IndexOf(entries[i := (entries[i].0, v)], id) == IndexOf(entries, id)
  {
    var e' := entries[i := (entries[i].0, v)];
    assert forall j :: 0 <= j < |entries| ==> e'[j].0 == entries[j].0;
  }

  /** The manager's constructor: Home Depot is registered, under
      `home-depot`, only when `NEXT_PUBLIC_SERPAPI_KEY` is truthy. */
  function NewManager(env: Env): (m: VendorManager)
    ensures Valid(m)
    ensures GetVendor(m, "home-depot") ==
              (if Truthy(env.publicKey) then Some(HomeDepot(env.publicKey.value)) else None)
    ensures forall id :: id != "home-depot" ==> GetVendor(m, id) == None
    ensures forall i :: 0 <= i < |Registered(m)| ==> IsAvailable(Registered(m)[i])
  {
    if Truthy(env.publicKey) then AddVendor(Empty, "home-depot", HomeDepot(env.publicKey.value))
    else Empty
  }

  /** `getAvailableVendors()`: the registered vendors reporting available, in
      registration order. */
  function GetAvailableVendors(m: VendorManager): (r: seq<Vendor>)
    ensures |r| == |Positions(Registered(m), IsAvailable)|
    ensures forall k :: 0 <= k < |r| ==> r[k] == Registered(m)[Positions(Registered(m), IsAvailable)[k]]
    ensures forall v :: v in r <==> v in Registered(m) && IsAvailable(v)
  {
    var r := Filter(Registered(m), IsAvailable);
    forall v ensures v in r <==> v in Registered(m) && IsAvailable(v) {
      FilterMembership(Registered(m), IsAvailable, v);
    }
    r
  }

  /** Registering an unavailable vendor under a new id (such as the
      placeholder vendors without their keys or suppliers) leaves the
      available vendors as they were. */
  lemma AddUnavailableKeepsAvailable(m: VendorManager, id: string, v: Vendor)
    requires id !in Ids(m) && !IsAvailable(v)
    ensures GetAvailableVendors(AddVendor(m, id, v)) == GetAvailableVendors(m)
  {
    var m' := AddVendor(m, id, v);
    GetVendorSpec(m, id);
    assert m'.entries == m.entries + [(id, v)];
    assert Registered(m') == Registered(m) + [v];
    FilterSnoc(Registered(m), v, IsAvailable);
  }

  /** An unavailable vendor under a new id changes what no id resolves to. */
  lemma AddUnavailableKeepsResolution(m: VendorManager, id: string, v: Vendor, x: string)
    requires id !in Ids(m) && !IsAvailable(v)
    ensures Resolves(AddVendor(m, id, v), x) == Resolves(m, x)
    ensures Resolves(m, x) ==> GetVendor(AddVendor(m, id, v), x) == GetVendor(m, x)
  {
    GetVendorSpec(m, id);
  }

  /** The search every vendor performs for one request: `searchProducts`
      with the request's parameters, the environment and the network. */
  function Searcher(params: SearchParams, env: Env, fetch: Fetcher): Vendor -> SearchResult {
    v => SearchProducts(v, params, env, fetch)
  }

  /** `Promise.all` over one search per vendor: one result per vendor, in
      vendor order. */
  function SearchEach(vs: seq<Vendor>, search: Vendor -> SearchResult): (results: seq<SearchResult>)
    ensures |results| == |vs|
    ensures forall k :: 0 <= k < |vs| ==> results[k] == search(vs[k])
  {
    if |vs| == 0 then []
    else SearchEach(vs[..|vs| - 1], search) + [search(vs[|vs| - 1])]
  }

  /** `searchAllVendors(params)`: one result per available vendor, in
      registration order. */
  function SearchAllVendors(m: VendorManager, search: Vendor -> SearchResult): (results: seq<SearchResult>)
    ensures |results| == |GetAvailableVendors(m)|
    ensures forall k :: 0 <= k < |results| ==> results[k] == search(GetAvailableVendors(m)[k])
  {
    SearchEach(GetAvailableVendors(m), search)
  }

  /** The id names a registered vendor that reports available. */
  predicate Resolves(m: VendorManager, id: string) {
    GetVendor(m, id).Some? && IsAvailable(GetVendor(m, id).value)
  }

  /** `Resolves` as a predicate on ids. */
  function Resolver(m: VendorManager): string -> bool {
    id => Resolves(m, id)
  }

  /** The positions of `ids` that name a registered, available vendor, in
      increasing order. */
  function ResolvedPositions(m: VendorManager, ids: seq<string>): seq<nat> {
    Positions(ids, Resolver(m))
  }

  /** `searchSpecificVendors(ids, params)`, as its loop over `ids`:
      an id that names a registered, available vendor appends the result of
      searching that vendor; any other id is skipped without trace. */
  function SearchSpecificVendors(m: VendorManager, ids: seq<string>, search: Vendor -> SearchResult)
    : seq<SearchResult>
  {
    if |ids| == 0 then []
    else
      var id := ids[|ids| - 1];
      SearchSpecificVendors(m, ids[..|ids| - 1], search)
      + (if Resolves(m, id) then [search(GetVendor(m, id).value)] else [])
  }

  /** Registering an unavailable vendor under a new id leaves every
      dispatch as it was: requesting that id is skipped like an unknown one. */
  lemma {:induction false} AddUnavailableKeepsDispatch(m: VendorManager, id: string, v: Vendor,
                                                       ids: seq<string>, search: Vendor -> SearchResult)
    requires id !in Ids(m) && !IsAvailable(v)
    ensures SearchSpecificVendors(AddVendor(m, id, v), ids, search) == SearchSpecificVendors(m, ids, search)
    decreases |ids|
  {
    if |ids| > 0 {
      AddUnavailableKeepsDispatch(m, id, v, ids[..|ids| - 1], search);
      AddUnavailableKeepsResolution(m, id, v, ids[|ids| - 1]);
    }
  }

  /** Every position of `ids` that resolves, duplicates included, yields the
      result of searching its vendor, in request order; nothing else yields
      a result. */
  lemma {:induction false} SearchSpecificSpec(m: VendorManager, ids: seq<string>, search: Vendor -> SearchResult)
    ensures var results := SearchSpecificVendors(m, ids, search);
      var pos := ResolvedPositions(m, ids);
      && |results| == |pos|
      && forall k :: 0 <= k < |results| ==> results[k] == search(GetVendor(m, ids[pos[k]]).value)
    decreases |ids|
  {
    if |ids| > 0 {
      var init := ids[..|ids| - 1];
      var id := ids[|ids| - 1];
      SearchSpecificSpec(m, init, search);
      assert ids == init + [id];
      PositionsSnoc(init, id, Resolver(m));
      var pos := ResolvedPositions(m, init);
      forall k | 0 <= k < |pos| ensures init[pos[k]] == ids[pos[k]] {
      }
    }
  }

  /** When no requested id resolves, nothing is searched. */
  lemma {:induction false} SearchSpecificNoneResolve(m: VendorManager, ids: seq<string>, search: Vendor -> SearchResult)
    requires forall i :: 0 <= i < |ids| ==> !Resolves(m, ids[i])
    ensures SearchSpecificVendors(m, ids, search) == []
    decreases |ids|
  {
    if |ids| > 0 {
      SearchSpecificNoneResolve(m, ids[..|ids| - 1], search);
    }
  }

  /** Dispatching a concatenated id list is dispatching each part in turn. */
  lemma {:induction false} SearchSpecificAppend(m: VendorManager, a: seq<string>, b: seq<string>,
                                                search: Vendor -> SearchResult)
    ensures SearchSpecificVendors(m, a + b, search)
            == SearchSpecificVendors(m, a, search) + SearchSpecificVendors(m, b, search)
    decreases |b|
  {
    if |b| == 0 {
      assert a + b == a;
    } else {
      var b' := b[..|b| - 1];
      assert (a + b)[..|a + b| - 1] == a + b';
      SearchSpecificAppend(m, a, b', search);
    }
  }

  /** An unknown or unavailable id contributes neither a result nor an
      error: the dispatch is as if it had not been requested. */
  lemma SkipUnresolved(m: VendorManager, a: seq<string>, id: string, b: seq<string>,
                       search: Vendor -> SearchResult)
    requires !Resolves(m, id)
    ensures SearchSpecificVendors(m, a + [id] + b, search)
            == SearchSpecificVendors(m, a + b, search)
  {
    SearchSpecificAppend(m, a + [id], b, search);
    SearchSpecificAppend(m, a, [id], search);
    SearchSpecificAppend(m, a, b, search);
    assert [id][..0] == [];
  }

  /** Requesting every registered id once, in registration order, searches
      exactly what `searchAllVendors` searches. */
  lemma SearchSpecificOfAllIds(m: VendorManager, search: Vendor -> SearchResult)
    requires Valid(m)
    ensures SearchSpecificVendors(m, Ids(m), search) == SearchAllVendors(m, search)
  {
    SearchSpecificOfIdPrefix(m, |m.entries|, search);
    assert Ids(m)[..|m.entries|] == Ids(m);
    assert Registered(m)[..|m.entries|] == Registered(m);
  }

  /** Dispatching one more id appends at most that id's result. */
  lemma SearchSpecificSnoc(m: VendorManager, ids: seq<string>, id: string, search: Vendor -> SearchResult)
    ensures SearchSpecificVendors(m, ids + [id], search)
            == SearchSpecificVendors(m, ids, search) + (if Resolves(m, id) then [search(GetVendor(m, id).value)] else [])
  {
    assert (ids + [id])[..|ids|] == ids;
  }

  lemma SearchEachSnoc(vs: seq<Vendor>, v: Vendor, search: Vendor -> SearchResult)
    ensures SearchEach(vs + [v], search) == SearchEach(vs, search) + [search(v)]
  {
    assert (vs + [v])[..|vs|] == vs;
  }

  lemma {:induction false} SearchSpecificOfIdPrefix(m: VendorManager, n: nat, search: Vendor -> SearchResult)
    requires Valid(m) && n <= |m.entries|
    ensures SearchSpecificVendors(m, Ids(m)[..n], search)
            == SearchEach(Filter(Registered(m)[..n], IsAvailable), search)
    decreases n
  {
    if n > 0 {
      SearchSpecificOfIdPrefix(m, n - 1, search);
      IdPrefixStep(m, n, search);
      VendorPrefixStep(m, n, search);
    }
  }

  /** Extending the id prefix by one searches the next vendor when it is
      available. */
  lemma IdPrefixStep(m: VendorManager, n: nat, search: Vendor -> SearchResult)
    requires Valid(m) && 0 < n <= |m.entries|
    ensures var v := m.entries[n - 1].1;
      SearchSpecificVendors(m, Ids(m)[..n], search)
      == SearchSpecificVendors(m, Ids(m)[..n - 1], search) + (if IsAvailable(v) then [search(v)] else [])
  {
    var id := m.entries[n - 1].0;
    assert Ids(m)[..n] == Ids(m)[..n - 1] + [id];
    GetVendorAt(m, n - 1);
    SearchSpecificSnoc(m, Ids(m)[..n - 1], id, search);
  }

  /** Extending the vendor prefix by one searches the next vendor when it is
      available. */
  lemma VendorPrefixStep(m: VendorManager, n: nat, search: Vendor -> SearchResult)
    requires 0 < n <= |m.entries|
    ensures var v := m.entries[n - 1].1;
      SearchEach(Filter(Registered(m)[..n], IsAvailable), search)
      == SearchEach(Filter(Registered(m)[..n - 1], IsAvailable), search) + (if IsAvailable(v) then [search(v)] else [])
  {
    var v := m.entries[n - 1].1;
    assert Registered(m)[..n] == Registered(m)[..n - 1] + [v];
    FilterSnoc(Registered(m)[..n - 1], v, IsAvailable);
    if IsAvailable(v) {
      SearchEachSnoc(Filter(Registered(m)[..n - 1], IsAvailable), v, search);
    }
  }
}

=== FILE: search_route.dfy ===
/** The pure logic of `GET /api/search`: request defaults, the material
    check, ZIP extraction, one shared query, the registry fan-out, merging,
    error collection, the client-facing sort and the response body. */
module SearchRoute {
  import opened Wrappers
  import opened Js
  import opened Upstream
  import opened Vendors
  import opened Registry
  import opened QueryMapper
  import Seqs
  import Price
  import Zip
  import StableSort

  /** The query-string parameters the handler reads (absent ones are `None`). */
  datatype RawQuery = RawQuery(
    material: Option<string>,
    location: Option<string>,
    sortBy: Option<string>,
    vendors: Option<string>)

  /** The JSON body returned: status 400 with an error, or status 200. */
  datatype SearchResponse =
    | BadRequest(message: string)
    | Success(products: seq<Product>, totalResults: int, vendors: seq<string>, errors: Option<seq<string>>)

  const MissingMaterial := "Material type is required"
  const DefaultSort := "price_low_to_high"
  const DefaultVendor := "home-depot"

  /** `searchParams.get('sortBy') || 'price_low_to_high'`. */
  function SortPolicy(q: RawQuery): (policy: string)
    ensures policy != ""
    ensures Truthy(q.sortBy) ==> policy == q.sortBy.value
    ensures !Truthy(q.sortBy) ==> policy == DefaultSort
  {
    Or(q.sortBy, DefaultSort)
  }

  /** `searchParams.get('vendors')?.split(',') || ['home-depot']`: an absent
      parameter asks for Home Depot; a present one, even empty, is split on
      commas, and joining the ids back gives the parameter. */
  function RequestedVendors(q: RawQuery): (ids: seq<string>)
    ensures |ids| >= 1
    ensures q.vendors.None? ==> ids == [DefaultVendor]
    ensures q.vendors.Some? ==> Join(ids, ',') == q.vendors.value
    ensures q.vendors.Some? ==> forall i :: 0 <= i < |ids| ==> ',' !in ids[i]
  {
    match q.vendors
    case None => [DefaultVendor]
    case Some(s) => Split(s, ',')
  }

  /** The canonical parameters every vendor receives: the phrase for the
      FIRST requested vendor, the raw location, the extracted ZIP and the
      defaulted sort. */
  function VendorParams(q: RawQuery, material: string, ids: seq<string>): (p: SearchParams)
    requires |ids| >= 1
    ensures p.query == GetSearchQuery(material, ids[0])
    ensures p.location == q.location && p.zipCode == Zip.ExtractZip(q.location)
    ensures p.sortBy == Some(SortPolicy(q))
    ensures p.minPrice.None? && p.maxPrice.None? && p.page.None? && p.limit.None?
  {
    SearchParams(GetSearchQuery(material, ids[0]), q.location, Zip.ExtractZip(q.location),
                 Some(SortPolicy(q)), None, None, None, None)
  }

  // ---------------------------------------------------------------------------
  // Merging the per-vendor results

  function ProductLists(results: seq<SearchResult>): (lists: seq<seq<Product>>)
    ensures |lists| == |results|
    ensures forall i :: 0 <= i < |results| ==> lists[i] == results[i].products
  {
    seq(|results|, i requires 0 <= i < |results| => results[i].products)
  }

  /** `results.flatMap(result => result.products)`. */
  function MergeProducts(results: seq<SearchResult>): seq<Product> {
    Seqs.Flatten(ProductLists(results))
  }

  /** Merging loses and invents nothing: its length is the sum of the
      result sizes, and a product is merged exactly when some result has it. */
  lemma MergeProductsSpec(results: seq<SearchResult>, p: Product)
    ensures |MergeProducts(results)| == Seqs.SumLengths(ProductLists(results))
    ensures p in MergeProducts(results) <==> exists i :: 0 <= i < |results| && p in results[i].products
  {
    Seqs.FlattenLength(ProductLists(results));
    Seqs.FlattenMembership(ProductLists(results), p);
  }

  /** Merging results in turn concatenates their products in result order. */
  lemma MergeProductsAppend(a: seq<SearchResult>, b: seq<SearchResult>)
    ensures MergeProducts(a + b) == MergeProducts(a) + MergeProducts(b)
  {
    assert ProductLists(a + b) == ProductLists(a) + ProductLists(b);
    Seqs.FlattenAppend(ProductLists(a), ProductLists(b));
  }

  /** The result carries a truthy error (an empty message does not count). */
  predicate HasError(r: SearchResult) {
    Truthy(r.error)
  }

  /** `results.filter(result => result.error).map(result => result.error)`. */
  function CollectErrors(results: seq<SearchResult>): (errors: seq<string>)
    ensures |errors| == |Seqs.Positions(results, HasError)|
    ensures forall k :: 0 <= k < |errors| ==>
              errors[k] == results[Seqs.Positions(results, HasError)[k]].error.value
    ensures forall k :: 0 <= k < |errors| ==> errors[k] != ""
    ensures |errors| == 0 <==> forall i :: 0 <= i < |results| ==> !HasError(results[i])
  {
    if |results| == 0 then []
    else
      var init := results[..|results| - 1];
      var last := results[|results| - 1];
      var prev := CollectErrors(init);
      CollectErrorsStep(init, last, prev);
      assert results == init + [last];
      if HasError(last) then prev + [last.error.value] else prev
  }

  /** One more result extends the collected messages, in position order. */
  lemma CollectErrorsStep(init: seq<SearchResult>, last: SearchResult, prev: seq<string>)
    requires |prev| == |Seqs.Positions(init, HasError)|
    requires forall k :: 0 <= k < |prev| ==> prev[k] == init[Seqs.Positions(init, HasError)[k]].error.value
    ensures var errors := if HasError(last) then prev + [last.error.value] else prev;
      var pos := Seqs.Positions(init + [last], HasError);
      && |errors| == |pos|
      && forall k :: 0 <= k < |errors| ==> errors[k] == (init + [last])[pos[k]].error.value
  {
    var results := init + [last];
    var ipos := Seqs.Positions(init, HasError);
    var pos := Seqs.Positions(results, HasError);
    Seqs.PositionsSnoc(init, last, HasError);
    assert forall k :: 0 <= k < |ipos| ==> pos[k] == ipos[k] && results[pos[k]] == init[ipos[k]];
  }

  /** An error is reported exactly when some result carries it, non-empty. */
  lemma {:induction false} CollectErrorsMembership(results: seq<SearchResult>, e: string)
    ensures e in CollectErrors(results) <==>
              e != "" && exists i :: 0 <= i < |results| && results[i].error == Some(e)
  {
    if |results| > 0 {
      var init := results[..|results| - 1];
      CollectErrorsMembership(init, e);
      assert forall i :: 0 <= i < |init| ==> init[i] == results[i];
      if e != "" && results[|results| - 1].error == Some(e) {
        assert HasError(results[|results| - 1]);
      }
    }
  }

  function VendorNames(results: seq<SearchResult>): (names: seq<string>)
    ensures |names| == |results|
    ensures forall i :: 0 <= i < |results| ==> names[i] == results[i].vendor
  {
    seq(|results|, i requires 0 <= i < |results| => results[i].vendor)
  }

  // ---------------------------------------------------------------------------
  // The client-facing sort

  /** `parseFloat(p.price.replace(/[^0-9.]/g, '')) || 0`, ascending. */
  function PriceOf(p: Product): real {
    Price.PriceKey(p.price)
  }

  /** The same key, descending. */
  function DescendingPriceOf(p: Product): real {
    -Price.PriceKey(p.price)
  }

  /** `p.rating || 0`, descending. */
  function DescendingRatingOf(p: Product): real {
    -p.rating.GetOr(0.0)
  }

  /** Every product in one class: sorting by it changes nothing. */
  function Unordered(p: Product): real {
    0.0
  }

  /** The comparator the handler picks for a sort policy, as a key. */
  function KeyFor(policy: string): Product -> real {
    if policy == "price_low_to_high" then PriceOf
    else if policy == "price_high_to_low" then DescendingPriceOf
    else if policy == "rating" then DescendingRatingOf
    else Unordered
  }

  predicate IsSortingPolicy(policy: string) {
    policy == "price_low_to_high" || policy == "price_high_to_low" || policy == "rating"
  }

  /** `allProducts.sort(...)` for the policy; `relevance` and unknown
      policies leave the merged order alone. */
  function SortProducts(policy: string, ps: seq<Product>): (r: seq<Product>)
    ensures multiset(r) == multiset(ps)
    ensures policy == "price_low_to_high" ==>
              forall i, j :: 0 <= i < j < |r| ==> PriceOf(r[i]) <= PriceOf(r[j])
    ensures policy == "price_high_to_low" ==>
              forall i, j :: 0 <= i < j < |r| ==> PriceOf(r[i]) >= PriceOf(r[j])
    ensures policy == "rating" ==>
              forall i, j :: 0 <= i < j < |r| ==> r[i].rating.GetOr(0.0) >= r[j].rating.GetOr(0.0)
    ensures !IsSortingPolicy(policy) ==> r == ps
  {
    if IsSortingPolicy(policy) then
      var r := StableSort.SortBy(ps, KeyFor(policy));
      assert forall i, j :: 0 <= i < j < |r| ==> KeyFor(policy)(r[i]) <= KeyFor(policy)(r[j]);
      r
    else ps
  }

  /** Whatever the policy, the sort is the stable sort by the policy's key. */
  lemma SortProductsIsStable(policy: string, ps: seq<Product>)
    ensures SortProducts(policy, ps) == StableSort.SortBy(ps, KeyFor(policy))
  {
    if !IsSortingPolicy(policy) {
      StableSort.SortSorted(ps, Unordered);
    }
  }

  /** Products with equal keys keep their merged order. */
  lemma SortProductsKeepsTies(policy: string, ps: seq<Product>, k: real)
    ensures StableSort.KeyClass(SortProducts(policy, ps), KeyFor(policy), k)
         == StableSort.KeyClass(ps, KeyFor(policy), k)
  {
    SortProductsIsStable(policy, ps);
    StableSort.SortStable(ps, KeyFor(policy), k);
  }

  // ---------------------------------------------------------------------------
  // The handler

  /** The response built from the vendors' results. */
  function Respond(policy: string, results: seq<SearchResult>): (r: SearchResponse)
    ensures r.Success?
    ensures r.totalResults == |r.products|
    ensures r.products == SortProducts(policy, MergeProducts(results))
    ensures multiset(r.products) == multiset(MergeProducts(results))
    ensures r.vendors == VendorNames(results)
    ensures r.errors.None? <==> forall i :: 0 <= i < |results| ==> !HasError(results[i])
    ensures r.errors.Some? ==> r.errors.value == CollectErrors(results)
  {
    var sorted := SortProducts(policy, MergeProducts(results));
    var errors := CollectErrors(results);
    Success(sorted, |sorted|, VendorNames(results), if |errors| > 0 then Some(errors) else None)
  }

  /** The vendors' results for a request with a material type. */
  function Results(q: RawQuery, material: string, env: Env, fetch: Fetcher): seq<SearchResult> {
    var ids := RequestedVendors(q);
    SearchSpecificVendors(NewManager(env), ids, Searcher(VendorParams(q, material, ids), env, fetch))
  }

  /** `GET(request)`, with the environment and the network as parameters. */
  function Get(q: RawQuery, env: Env, fetch: Fetcher): (r: SearchResponse)
    ensures r.BadRequest? <==> !Truthy(q.material)
    ensures r.BadRequest? ==> r.message == MissingMaterial
    ensures r.Success? ==> r == Respond(SortPolicy(q), Results(q, q.material.value, env, fetch))
  {
    if !Truthy(q.material) then BadRequest(MissingMaterial)
    else Respond(SortPolicy(q), Results(q, q.material.value, env, fetch))
  }

  /** The total is the number of merged products, summed over the vendors. */
  lemma TotalIsMergedCount(q: RawQuery, env: Env, fetch: Fetcher)
    requires Truthy(q.material)
    ensures var results := Results(q, q.material.value, env, fetch);
            Get(q, env, fetch).totalResults == Seqs.SumLengths(ProductLists(results))
  {
    var results := Results(q, q.material.value, env, fetch);
    var merged := MergeProducts(results);
    var r := Get(q, env, fetch);
    assert |r.products| == |multiset(r.products)| == |multiset(merged)| == |merged|;
    Seqs.FlattenLength(ProductLists(results));
  }

  // ---------------------------------------------------------------------------
  // Scenarios

  /** Without a public SerpAPI key no vendor is registered, so every
      request with a material gets an empty, error-free response. */
  lemma NoKeyEmptyResponse(q: RawQuery, env: Env, fetch: Fetcher)
    requires Truthy(q.material) && !Truthy(env.publicKey)
    ensures Get(q, env, fetch) == Success([], 0, [], None)
  {
    var ids := RequestedVendors(q);
    var m := NewManager(env);
    assert forall id :: !Resolves(m, id);
    var search := Searcher(VendorParams(q, q.material.value, ids), env, fetch);
    SearchSpecificNoneResolve(m, ids, search);
    var results := Results(q, q.material.value, env, fetch);
    assert results == [];
    assert MergeProducts(results) == [];
  }

  /** Ids the manager does not know are skipped without trace: asking for
      `home-depot,lowes` yields the Home Depot result alone. */
  lemma UnknownVendorSkipped(q: RawQuery, env: Env, fetch: Fetcher)
    requires Truthy(q.material) && Truthy(env.publicKey)
    requires q.vendors == Some("home-depot,lowes")
    ensures Get(q, env, fetch).vendors == ["Home Depot"]
  {
    var ids := ["home-depot", "lowes"];
    TwoVendorIds(q);
    var search := Searcher(VendorParams(q, q.material.value, ids), env, fetch);
    OnlyHomeDepotResolves(env, search);
    var results := Results(q, q.material.value, env, fetch);
    assert results == [search(HomeDepot(env.publicKey.value))];
    assert VendorNames(results) == ["Home Depot"];
  }

  lemma TwoVendorIds(q: RawQuery)
    requires q.vendors == Some("home-depot,lowes")
    ensures RequestedVendors(q) == ["home-depot", "lowes"]
  {
    var ids := ["home-depot", "lowes"];
    assert Join(ids, ',') == "home-depot,lowes";
    SplitJoin(ids, ',');
  }

  lemma OnlyHomeDepotResolves(env: Env, search: Vendor -> SearchResult)
    requires Truthy(env.publicKey)
    ensures SearchSpecificVendors(NewManager(env), ["home-depot", "lowes"], search)
         == [search(HomeDepot(env.publicKey.value))]
  {
    var m := NewManager(env);
    assert !Resolves(m, "lowes");
    SkipUnresolved(m, ["home-depot"], "lowes", [], search);
    assert ["home-depot"] + ["lowes"] + [] == ["home-depot", "lowes"];
    assert ["home-depot"] + [] == ["home-depot"];
    var pos := ResolvedPositions(m, ["home-depot"]);
    assert Resolves(m, "home-depot");
    assert 0 in pos;
    assert |pos| == 1;
  }

  /** A product listing that differs from another only in its price. */
  function Listing(price: string): Product {
    Product("", "", price, None, None, None, None, None, None, "Home Depot", None,
            None, None, None, None, None, None, None)
  }

  /** The default sort puts `$5.50` before `$10.00` before `$20`. */
  lemma PriceSortExample()
    ensures SortProducts(DefaultSort, [Listing("$10.00"), Listing("$5.50"), Listing("$20")])
         == [Listing("$5.50"), Listing("$10.00"), Listing("$20")]
  {
    var a, b, c := Listing("$10.00"), Listing("$5.50"), Listing("$20");
    ExamplePrices();
    assert KeyFor(DefaultSort) == PriceOf;
    InsertionSteps(a, b, c);
  }

  lemma ExamplePrices()
    ensures PriceOf(Listing("$10.00")) == 10.0
    ensures PriceOf(Listing("$5.50")) == 5.5
    ensures PriceOf(Listing("$20")) == 20.0
  {
    TenDollars();
    FiveFifty();
    TwentyDollars();
  }

  lemma TenDollars()
    ensures Price.PriceKey("$10.00") == 10.0
  {
    assert NatToString(10) == "10";
    assert Price.Cents(0) == "00";
    assert Price.DisplayPrice(10, 0) == "$10.00";
    Price.FormattedPriceKey(10, 0);
  }

  lemma FiveFifty()
    ensures Price.PriceKey("$5.50") == 5.5
  {
    assert NatToString(5) == "5";
    assert Price.Cents(50) == "50";
    assert Price.DisplayPrice(5, 50) == "$5.50";
    Price.FormattedPriceKey(5, 50);
  }

  lemma TwentyDollars()
    ensures Price.PriceKey("$20") == 20.0
  {
    assert NatToString(20) == "20";
    assert "$" + NatToString(20) == "$20";
    Price.WholeDollarKey(20);
  }

  lemma InsertionSteps(a: Product, b: Product, c: Product)
    requires PriceOf(b) < PriceOf(a) < PriceOf(c)
    ensures StableSort.SortBy([a, b, c], PriceOf) == [b, a, c]
  {
    StableSort.SortStep([a, b, c], PriceOf);
    assert [a, b, c][1..] == [b, c];
    SortTwoOrdered(b, c);
    InsertSecond(a, b, c);
  }

  lemma SortTwoOrdered(b: Product, c: Product)
    requires PriceOf(b) <= PriceOf(c)
    ensures StableSort.SortBy([b, c], PriceOf) == [b, c]
  {
    StableSort.SortStep([b, c], PriceOf);
    assert [b, c][1..] == [c];
    StableSort.SortStep([c], PriceOf);
    assert [c][1..] == [];
  }

  lemma InsertSecond(a: Product, b: Product, c: Product)
    requires PriceOf(b) < PriceOf(a) <= PriceOf(c)
    ensures StableSort.Insert(a, [b, c], PriceOf) == [b, a, c]
  {
    assert [b, c][1..] == [c];
    assert StableSort.Insert(a, [c], PriceOf) == [a] + [c];
  }
}

=== FILE: seqs.dfy ===
/** Order-preserving selection and concatenation over sequences: the shape of
    `Array.prototype.filter`, of a `for … of` loop that pushes only some
    elements, and of `Array.prototype.flatMap`. */
module Seqs {

  /** `pos` lists indices of a sequence of length `n` in strictly increasing order. */
  ghost predicate IncreasingIndices(pos: seq<nat>, n: nat) {
    && (forall k :: 0 <= k < |pos| ==> pos[k] < n)
    && (forall k, l :: 0 <= k < l < |pos| ==> pos[k] < pos[l])
  }

  /** The indices `i` of `xs` with `p(xs[i])`, in increasing order.  Built
      from the back, as a loop over `xs` appends them. */
  function Positions<T>(xs: seq<T>, p: T -> bool): (pos: seq<nat>)
    ensures IncreasingIndices(pos, |xs|)
    ensures forall k :: 0 <= k < |pos| ==> p(xs[pos[k]])
    ensures forall i :: 0 <= i < |xs| && p(xs[i]) ==> i in pos
    ensures |pos| <= |xs|
  {
    if |xs| == 0 then []
    else
      var init := Positions(xs[..|xs| - 1], p);
      assert forall k :: 0 <= k < |init| ==> xs[..|xs| - 1][init[k]] == xs[init[k]];
      if p(xs[|xs| - 1]) then init + [|xs| - 1] else init
  }

  /** Extending the scanned prefix by one element appends that element's
      index exactly when it is selected. */
  lemma PositionsSnoc<T>(xs: seq<T>, x: T, p: T -> bool)
    ensures Positions(xs + [x], p) == Positions(xs, p) + (if p(x) then [|xs|] else [])
  {
    assert (xs + [x])[..|xs|] == xs;
  }

  /** The elements of `xs` satisfying `p`, in their original order
      (`xs.filter(p)`). */
  function Filter<T>(xs: seq<T>, p: T -> bool): (r: seq<T>)
    ensures |r| == |Positions(xs, p)|
    ensures forall k :: 0 <= k < |r| ==> r[k] == xs[Positions(xs, p)[k]]
  {
    if |xs| == 0 then []
    else
      var init := Filter(xs[..|xs| - 1], p);
      assert forall k :: 0 <= k < |init| ==> init[k] == xs[Positions(xs[..|xs| - 1], p)[k]];
      if p(xs[|xs| - 1]) then init + [xs[|xs| - 1]] else init
  }

  /** Filtering a sequence extended by one element. */
  lemma FilterSnoc<T>(xs: seq<T>, x: T, p: T -> bool)
    ensures Filter(xs + [x], p) == Filter(xs, p) + (if p(x) then [x] else [])
  {
    assert (xs + [x])[..|xs|] == xs;
  }

  /** Filtering keeps exactly the satisfying elements. */
  lemma FilterMembership<T>(xs: seq<T>, p: T -> bool, x: T)
    ensures x in Filter(xs, p) <==> x in xs && p(x)
  {
    var r := Filter(xs, p);
    var pos := Positions(xs, p);
    if x in r {
      var k :| 0 <= k < |r| && r[k] == x;
      assert xs[pos[k]] == x;
    }
    if x in xs && p(x) {
      var i :| 0 <= i < |xs| && xs[i] == x;
      assert i in pos;
      var k :| 0 <= k < |pos| && pos[k] == i;
      assert r[k] == x;
    }
  }

  /** Filtering distributes over concatenation. */
  lemma {:induction false} FilterAppend<T>(xs: seq<T>, ys: seq<T>, p: T -> bool)
    ensures Filter(xs + ys, p) == Filter(xs, p) + Filter(ys, p)
    decreases |ys|
  {
    if |ys| > 0 {
      var ys' := ys[..|ys| - 1];
      FilterAppend(xs, ys', p);
      assert (xs + ys)[..|xs + ys| - 1] == xs + ys';
      assert ys'[..] == ys[..|ys| - 1];
    } else {
      assert xs + ys == xs;
    }
  }

  /** Concatenation of a list of lists, in list order (`flatMap` with the
      identity). */
  function Flatten<T>(xss: seq<seq<T>>): seq<T> {
    if |xss| == 0 then [] else Flatten(xss[..|xss| - 1]) + xss[|xss| - 1]
  }

  /** Total length of all lists. */
  function SumLengths<T>(xss: seq<seq<T>>): nat {
    if |xss| == 0 then 0 else SumLengths(xss[..|xss| - 1]) + |xss[|xss| - 1]|
  }

  /** The flattened list is as long as all lists together, holds exactly the
      elements of the lists, and flattening distributes over concatenation. */
  lemma {:induction false} FlattenLength<T>(xss: seq<seq<T>>)
    ensures |Flatten(xss)| == SumLengths(xss)
    decreases |xss|
  {
    if |xss| > 0 {
      FlattenLength(xss[..|xss| - 1]);
    }
  }

  lemma {:induction false} FlattenMembership<T>(xss: seq<seq<T>>, x: T)
    ensures x in Flatten(xss) <==> exists i :: 0 <= i < |xss| && x in xss[i]
    decreases |xss|
  {
    if |xss| > 0 {
      var init := xss[..|xss| - 1];
      FlattenMembership(init, x);
      if x in Flatten(init) {
        var i :| 0 <= i < |init| && x in init[i];
        assert x in xss[i];
      }
      if exists i :: 0 <= i < |xss| && x in xss[i] {
        var i :| 0 <= i < |xss| && x in xss[i];
        if i < |init| {
          assert x in init[i];
        }
      }
    }
  }

  lemma {:induction false} FlattenAppend<T>(xss: seq<seq<T>>, yss: seq<seq<T>>)
    ensures Flatten(xss + yss) == Flatten(xss) + Flatten(yss)
    decreases |yss|
  {
    if |yss| == 0 {
      assert xss + yss == xss;
    } else {
      var yss' := yss[..|yss| - 1];
      var zss := xss + yss;
      FlattenAppend(xss, yss');
      assert zss[..|zss| - 1] == xss + yss';
      assert zss[|zss| - 1] == yss[|yss| - 1];
      assert Flatten(zss) == Flatten(xss + yss') + yss[|yss| - 1];
      assert Flatten(yss) == Flatten(yss') + yss[|yss| - 1];
    }
  }
}

=== FILE: stable_sort.dfy ===
/** A stable sort by a real-valued key. `Array.prototype.sort` is stable,
    so sorting with the comparator `(a, b) => key(a) - key(b)` yields the
    unique ordering that is sorted by the key and keeps equal-key elements
    in their original order; `SortBy` is that ordering, built by insertion. */
module StableSort {

  ghost predicate Sorted<T>(xs: seq<T>, key: T -> real) {
    forall i, j :: 0 <= i < j < |xs| ==> key(xs[i]) <= key(xs[j])
  }

  /** The elements whose key is `k`, in their order in `xs`. */
  function KeyClass<T>(xs: seq<T>, key: T -> real, k: real): seq<T> {
    if |xs| == 0 then []
    else (if key(xs[0]) == k then [xs[0]] else []) + KeyClass(xs[1..], key, k)
  }

  /** Inserts `x` in front of the first element whose key is not smaller. */
  function Insert<T>(x: T, xs: seq<T>, key: T -> real): (r: seq<T>)
    requires Sorted(xs, key)
    ensures Sorted(r, key)
    ensures multiset(r) == multiset(xs) + multiset{x}
    ensures |r| == |xs| + 1
    ensures r[0] == x || (|xs| > 0 && r[0] == xs[0])
  {
    if |xs| == 0 then [x]
    else if key(x) <= key(xs[0]) then
      SortedCons(x, xs, key);
      [x] + xs
    else
      var rest := Insert(x, xs[1..], key);
      SortedCons(xs[0], rest, key);
      assert xs == [xs[0]] + xs[1..];
      [xs[0]] + rest
  }

  lemma SortedCons<T>(h: T, xs: seq<T>, key: T -> real)
    requires Sorted(xs, key)
    requires |xs| > 0 ==> key(h) <= key(xs[0])
    ensures Sorted([h] + xs, key)
  {
    var r := [h] + xs;
    forall i, j | 0 <= i < j < |r| ensures key(r[i]) <= key(r[j]) {
      if i == 0 && j > 1 {
        assert r[j] == xs[j - 1];
      }
    }
  }

  /** The stable sort: sorted by the key, and a permutation of the input. */
  function SortBy<T>(xs: seq<T>, key: T -> real): (r: seq<T>)
    ensures Sorted(r, key)
    ensures multiset(r) == multiset(xs)
    ensures |r| == |xs|
  {
    if |xs| == 0 then []
    else
      MultisetCons(xs);
      Insert(xs[0], SortBy(xs[1..], key), key)
  }

  lemma MultisetCons<T>(xs: seq<T>)
    requires |xs| > 0
    ensures multiset(xs) == multiset{xs[0]} + multiset(xs[1..])
  {
    assert xs == [xs[0]] + xs[1..];
  }

  /** One step of the insertion sort. */
  lemma SortStep<T>(xs: seq<T>, key: T -> real)
    requires |xs| > 0
    ensures SortBy(xs, key) == Insert(xs[0], SortBy(xs[1..], key), key)
  {
  }

  lemma ClassCons<T>(h: T, xs: seq<T>, key: T -> real, k: real)
    ensures KeyClass([h] + xs, key, k) == (if key(h) == k then [h] else []) + KeyClass(xs, key, k)
  {
    assert ([h] + xs)[1..] == xs;
  }

  lemma {:induction false} InsertClass<T>(x: T, xs: seq<T>, key: T -> real, k: real)
    requires Sorted(xs, key)
    ensures KeyClass(Insert(x, xs, key), key, k)
         == (if key(x) == k then [x] else []) + KeyClass(xs, key, k)
  {
    if |xs| > 0 && key(x) > key(xs[0]) {
      var rest := Insert(x, xs[1..], key);
      assert Insert(x, xs, key) == [xs[0]] + rest;
      ClassCons(xs[0], rest, key, k);
      InsertClass(x, xs[1..], key, k);
      assert xs == [xs[0]] + xs[1..];
      ClassCons(xs[0], xs[1..], key, k);
      assert key(xs[0]) != k || key(x) != k;
    } else {
      assert Insert(x, xs, key) == [x] + xs;
      ClassCons(x, xs, key, k);
    }
  }

  /** Sorting keeps every key class in its original order: the sort is stable. */
  lemma {:induction false} SortStable<T>(xs: seq<T>, key: T -> real, k: real)
    ensures KeyClass(SortBy(xs, key), key, k) == KeyClass(xs, key, k)
  {
    if |xs| > 0 {
      SortStable(xs[1..], key, k);
      InsertClass(xs[0], SortBy(xs[1..], key), key, k);
    }
  }

  lemma {:induction false} ClassMembers<T>(xs: seq<T>, key: T -> real, k: real, y: T)
    requires y in KeyClass(xs, key, k)
    ensures y in xs && key(y) == k
  {
    if y != xs[0] || key(xs[0]) != k {
      ClassMembers(xs[1..], key, k, y);
    }
  }

  lemma {:induction false} ClassHas<T>(xs: seq<T>, key: T -> real, i: nat)
    requires i < |xs|
    ensures |KeyClass(xs, key, key(xs[i]))| > 0
  {
    if i > 0 {
      ClassHas(xs[1..], key, i - 1);
    }
  }

  lemma FirstClass<T>(xs: seq<T>, key: T -> real)
    ensures |xs| > 0 ==> KeyClass(xs, key, key(xs[0])) != []
  {
  }

  /** Two sequences sorted by the same key with the same key classes are equal. */
  lemma {:induction false} SortedClassesUnique<T>(a: seq<T>, b: seq<T>, key: T -> real)
    requires Sorted(a, key) && Sorted(b, key)
    requires forall k :: KeyClass(a, key, k) == KeyClass(b, key, k)
    ensures a == b
  {
    if |a| == 0 || |b| == 0 {
      FirstClass(a, key);
      FirstClass(b, key);
    } else {
      var ka, kb := key(a[0]), key(b[0]);
      ClassHas(a, key, 0);
      ClassHas(b, key, 0);
      assert KeyClass(a, key, ka) == KeyClass(b, key, ka);
      assert KeyClass(a, key, kb) == KeyClass(b, key, kb);
      ClassMembers(b, key, ka, KeyClass(b, key, ka)[0]);
      ClassMembers(a, key, kb, KeyClass(a, key, kb)[0]);
      assert kb <= ka && ka <= kb;
      assert a[0] == KeyClass(a, key, ka)[0] == KeyClass(b, key, ka)[0] == b[0];
      forall k ensures KeyClass(a[1..], key, k) == KeyClass(b[1..], key, k) {
        var head := if ka == k then [a[0]] else [];
        assert KeyClass(a, key, k) == head + KeyClass(a[1..], key, k);
        assert KeyClass(b, key, k) == head + KeyClass(b[1..], key, k);
        PrefixCancel(head, KeyClass(a[1..], key, k), KeyClass(b[1..], key, k));
      }
      SortedClassesUnique(a[1..], b[1..], key);
      assert a == [a[0]] + a[1..];
      assert b == [b[0]] + b[1..];
    }
  }

  lemma PrefixCancel<T>(p: seq<T>, xs: seq<T>, ys: seq<T>)
    requires p + xs == p + ys
    ensures xs == ys
  {
    assert xs == (p + xs)[|p|..];
    assert ys == (p + ys)[|p|..];
  }

  /** Any stable sort of `xs` by `key` is `SortBy(xs, key)`. */
  lemma StableSortIsSortBy<T>(xs: seq<T>, ys: seq<T>, key: T -> real)
    requires Sorted(ys, key)
    requires forall k :: KeyClass(ys, key, k) == KeyClass(xs, key, k)
    ensures ys == SortBy(xs, key)
  {
    forall k ensures KeyClass(ys, key, k) == KeyClass(SortBy(xs, key), key, k) {
      SortStable(xs, key, k);
    }
    SortedClassesUnique(ys, SortBy(xs, key), key);
  }

  /** A sequence already sorted by the key is left as it is. */
  lemma {:induction false} SortSorted<T>(xs: seq<T>, key: T -> real)
    requires Sorted(xs, key)
    ensures SortBy(xs, key) == xs
  {
    StableSortIsSortBy(xs, xs, key);
  }
}

=== FILE: upstream.dfy ===
/** The outside world the search core talks to, reduced to data: the
    environment variables it reads, the query-parameter list it sends to the
    SerpAPI search endpoint, and what comes back from `fetch`. */
module Upstream {
  import opened Wrappers
  import opened Js

  /** `process.env.NEXT_PUBLIC_SERPAPI_KEY` and `process.env.SERPAPI_KEY`. */
  datatype Env = Env(publicKey: Option<string>, serverKey: Option<string>)

  /** The names of the SerpAPI Home Depot engine's query parameters. */
  datatype ParamName =
    | Engine | ApiKey | Q | Country | Output
    | HdSort | DeliveryZip | LowerBound | UpperBound | Page | PageSize

  /** How each name is spelled on the wire. */
  function Spelling(n: ParamName): string {
    match n
    case Engine => "engine"
    case ApiKey => "api_key"
    case Q => "q"
    case Country => "country"
    case Output => "output"
    case HdSort => "hd_sort"
    case DeliveryZip => "delivery_zip"
    case LowerBound => "lowerbound"
    case UpperBound => "upperbound"
    case Page => "page"
    case PageSize => "ps"
  }

  /** The `URLSearchParams` of a request, as (name, value) pairs in insertion
      order.  Percent-encoding into the URL text is not modelled. */
  type QueryParams = seq<(ParamName, string)>

  /** One product record of the upstream JSON payload; absent or `null`
      fields are `None`. */
  datatype UpstreamProduct = UpstreamProduct(
    productId: Option<string>,
    title: Option<string>,
    price: Option<string>,
    brand: Option<string>,
    rating: Option<real>,
    reviews: Option<int>,
    thumbnail: Option<string>,
    link: Option<string>,
    deliveryOptions: Option<seq<string>>,
    storeAvailability: Option<bool>)

  /** The parsed JSON payload: `products` and `search_information.total_results`. */
  datatype UpstreamData = UpstreamData(
    products: Option<seq<UpstreamProduct>>,
    totalResults: Option<int>)

  /** The result of `response.json()`: a payload, or the parse error's message. */
  datatype Body = Parsed(data: UpstreamData) | Unparsable(message: string)

  /** The result of `fetch`: a rejected promise carries an error message, a
      response carries status, status text and body. */
  datatype FetchOutcome =
    | NetworkFailure(message: string)
    | Response(status: int, statusText: string, body: Body)

  /** The network, as an oracle from the request's query parameters to its outcome. */
  type Fetcher = QueryParams -> FetchOutcome

  /** `Response.ok`: the status is in the 200–299 range. */
  predicate IsOk(status: int) {
    200 <= status <= 299
  }

  /** The value of the first parameter called `name`, if any
      (`URLSearchParams.prototype.get`). */
  function Lookup(qp: QueryParams, name: ParamName): Option<string> {
    if |qp| == 0 then None
    else if qp[0].0 == name then Some(qp[0].1)
    else Lookup(qp[1..], name)
  }

  /** Lookup finds a value exactly when some parameter has the name, and the
      value it finds belongs to such a parameter. */
  lemma {:induction false} LookupSpec(qp: QueryParams, name: ParamName)
    ensures Lookup(qp, name).Some? <==> exists i :: 0 <= i < |qp| && qp[i].0 == name
    ensures Lookup(qp, name).Some? ==> (name, Lookup(qp, name).value) in qp
    decreases |qp|
  {
    if |qp| > 0 && qp[0].0 != name {
      LookupSpec(qp[1..], name);
      assert forall i :: 1 <= i < |qp| ==> qp[i] == qp[1..][i - 1];
    }
  }

  /** In a list without repeated names, a present parameter is what lookup finds. */
  lemma LookupUnique(qp: QueryParams, name: ParamName, value: string)
    requires DistinctNames(qp)
    requires (name, value) in qp
    ensures Lookup(qp, name) == Some(value)
  {
    LookupSpec(qp, name);
    var i :| 0 <= i < |qp| && qp[i] == (name, value);
    var j :| 0 <= j < |qp| && qp[j] == (name, Lookup(qp, name).value);
    assert i == j;
  }

  /** A name no parameter carries is not found. */
  lemma LookupAbsent(qp: QueryParams, name: ParamName)
    requires forall i :: 0 <= i < |qp| ==> qp[i].0 != name
    ensures Lookup(qp, name) == None
  {
    LookupSpec(qp, name);
  }

  /** No parameter name occurs twice. */
  predicate DistinctNames(qp: QueryParams) {
    forall i, j :: 0 <= i < j < |qp| ==> qp[i].0 != qp[j].0
  }

  /** A parameter that the request carries only when its value is truthy
      (`...(v && { name: v })`). */
  function OptionalParam(name: ParamName, v: Option<string>): (r: QueryParams)
    ensures |r| <= 1
    ensures forall i :: 0 <= i < |r| ==> r[i].0 == name
    ensures Lookup(r, name) == (if v.Some? && v.value != "" then v else None)
  {
    if v.Some? && v.value != "" then [(name, v.value)] else []
  }

  /** Looking a name up in a concatenation finds the first list's entry first. */
  lemma {:induction false} LookupAppend(a: QueryParams, b: QueryParams, name: ParamName)
    ensures Lookup(a + b, name) == if Lookup(a, name).Some? then Lookup(a, name) else Lookup(b, name)
    decreases |a|
  {
    if |a| > 0 {
      assert (a + b)[1..] == a[1..] + b;
      if a[0].0 != name {
        LookupAppend(a[1..], b, name);
      }
    } else {
      assert a + b == b;
    }
  }

  /** `process.env.NEXT_PUBLIC_SERPAPI_KEY || process.env.SERPAPI_KEY`, kept
      only when truthy: the key a SerpAPI request is made with. */
  function SerpApiKey(env: Env): (key: Option<string>)
    ensures key.Some? <==> (env.publicKey.Some? && env.publicKey.value != "")
                           || (env.serverKey.Some? && env.serverKey.value != "")
    ensures key.Some? ==> key.value != ""
    ensures env.publicKey.Some? && env.publicKey.value != "" ==> key == env.publicKey
    ensures !Truthy(env.publicKey) && Truthy(env.serverKey) ==> key == env.serverKey
  {
    if env.publicKey.Some? && env.publicKey.value != "" then env.publicKey
    else if env.serverKey.Some? && env.serverKey.value != "" then env.serverKey
    else None
  }

  /** The message both SerpAPI clients fail with when no key is configured. */
  const MissingKeyMessage: string :=
    "SerpAPI key not found. Please add NEXT_PUBLIC_SERPAPI_KEY to your environment variables."

  /** Lookup skips a prefix that does not carry the name. */
  lemma LookupPast(a: QueryParams, b: QueryParams, name: ParamName)
    requires forall i :: 0 <= i < |a| ==> a[i].0 != name
    ensures Lookup(a + b, name) == Lookup(b, name)
  {
    LookupAppend(a, b, name);
    LookupAbsent(a, name);
  }

  /** Lookup never reaches a suffix that does not carry the name. */
  lemma LookupBefore(a: QueryParams, b: QueryParams, name: ParamName)
    requires forall i :: 0 <= i < |b| ==> b[i].0 != name
    ensures Lookup(a + b, name) == Lookup(a, name)
  {
    LookupAppend(a, b, name);
    LookupAbsent(b, name);
  }

  /** Every parameter name of `qp` is drawn from `names`. */
  predicate NamesIn(qp: QueryParams, names: set<ParamName>) {
    forall i :: 0 <= i < |qp| ==> qp[i].0 in names
  }

  /** Concatenating two lists without repeated names, whose names come from
      disjoint sets, gives a list without repeated names. */
  lemma DistinctAppend(a: QueryParams, b: QueryParams, na: set<ParamName>, nb: set<ParamName>)
    requires DistinctNames(a) && DistinctNames(b)
    requires NamesIn(a, na) && NamesIn(b, nb) && na !! nb
    ensures DistinctNames(a + b)
    ensures NamesIn(a + b, na + nb)
  {
  }

  /** The fetch succeeded, the status was ok and the body parsed. */
  predicate Delivered(outcome: FetchOutcome) {
    outcome.Response? && IsOk(outcome.status) && outcome.body.Parsed?
  }

  /** A number parameter the request carries only when the number is truthy
      (non-zero), spelled by `toString`. */
  function NumberParam(name: ParamName, n: Option<int>): (r: QueryParams)
    ensures Lookup(r, name) == (if TruthyNumber(n) then Some(IntToString(n.value)) else None)
    ensures |r| <= 1
    ensures forall i :: 0 <= i < |r| ==> r[i].0 == name
  {
    OptionalParam(name, if TruthyNumber(n) then Some(IntToString(n.value)) else None)
  }

  /** At most one parameter, called `n`. */
  predicate Single(s: QueryParams, n: ParamName) {
    |s| <= 1 && (|s| == 1 ==> s[0].0 == n)
  }

  /** In five segments of at most one parameter each, with distinct names,
      looking a name up finds what its own segment holds. */
  lemma LookupFiveSegments(s1: QueryParams, s2: QueryParams, s3: QueryParams, s4: QueryParams, s5: QueryParams,
                           n1: ParamName, n2: ParamName, n3: ParamName, n4: ParamName, n5: ParamName)
    requires Single(s1, n1) && Single(s2, n2) && Single(s3, n3) && Single(s4, n4) && Single(s5, n5)
    requires n1 != n2 && n1 != n3 && n1 != n4 && n1 != n5
    requires n2 != n3 && n2 != n4 && n2 != n5
    requires n3 != n4 && n3 != n5 && n4 != n5
    ensures var qp := s1 + (s2 + (s3 + (s4 + s5)));
      && Lookup(qp, n1) == Lookup(s1, n1)
      && Lookup(qp, n2) == Lookup(s2, n2)
      && Lookup(qp, n3) == Lookup(s3, n3)
      && Lookup(qp, n4) == Lookup(s4, n4)
      && Lookup(qp, n5) == Lookup(s5, n5)
  {
    LookupInFive(s1, s2, s3, s4, s5, n1, n2, n3, n4, n5, n1);
    LookupInFive(s1, s2, s3, s4, s5, n1, n2, n3, n4, n5, n2);
    LookupInFive(s1, s2, s3, s4, s5, n1, n2, n3, n4, n5, n3);
    LookupInFive(s1, s2, s3, s4, s5, n1, n2, n3, n4, n5, n4);
    LookupInFive(s1, s2, s3, s4, s5, n1, n2, n3, n4, n5, n5);
  }

  /** Five single-parameter segments with distinct names never repeat a
      name, and carry no name but their own. */
  lemma FiveSegmentsNames(s1: QueryParams, s2: QueryParams, s3: QueryParams, s4: QueryParams, s5: QueryParams,
                          n1: ParamName, n2: ParamName, n3: ParamName, n4: ParamName, n5: ParamName)
    requires Single(s1, n1) && Single(s2, n2) && Single(s3, n3) && Single(s4, n4) && Single(s5, n5)
    requires n1 != n2 && n1 != n3 && n1 != n4 && n1 != n5
    requires n2 != n3 && n2 != n4 && n2 != n5
    requires n3 != n4 && n3 != n5 && n4 != n5
    ensures DistinctNames(s1 + (s2 + (s3 + (s4 + s5))))
    ensures NamesIn(s1 + (s2 + (s3 + (s4 + s5))), {n1, n2, n3, n4, n5})
  {
    assert DistinctNames(s5) && NamesIn(s5, {n5});
    ConsSingle(s4, n4, s5, {n5});
    ConsSingle(s3, n3, s4 + s5, {n4, n5});
    ConsSingle(s2, n2, s3 + (s4 + s5), {n3, n4, n5});
    ConsSingle(s1, n1, s2 + (s3 + (s4 + s5)), {n2, n3, n4, n5});
  }

  /** A single parameter put in front of a list without its name keeps the
      names distinct. */
  lemma ConsSingle(s: QueryParams, n: ParamName, rest: QueryParams, names: set<ParamName>)
    requires Single(s, n) && DistinctNames(rest) && NamesIn(rest, names) && n !in names
    ensures DistinctNames(s + rest)
    ensures NamesIn(s + rest, {n} + names)
  {
    if |s| == 0 {
      assert s + rest == rest;
    }
  }

  /** One name looked up in five single-parameter segments: the first
      segment it names decides. */
  lemma LookupInFive(s1: QueryParams, s2: QueryParams, s3: QueryParams, s4: QueryParams, s5: QueryParams,
                     n1: ParamName, n2: ParamName, n3: ParamName, n4: ParamName, n5: ParamName,
                     name: ParamName)
    requires Single(s1, n1) && Single(s2, n2) && Single(s3, n3) && Single(s4, n4) && Single(s5, n5)
    requires n1 != n2 && n1 != n3 && n1 != n4 && n1 != n5
    requires n2 != n3 && n2 != n4 && n2 != n5
    requires n3 != n4 && n3 != n5 && n4 != n5
    ensures Lookup(s1 + (s2 + (s3 + (s4 + s5))), name)
         == if name == n1 then Lookup(s1, name)
            else if name == n2 then Lookup(s2, name)
            else if name == n3 then Lookup(s3, name)
            else if name == n4 then Lookup(s4, name)
            else if name == n5 then Lookup(s5, name)
            else None
  {
    var r3 := s4 + s5;
    var r2 := s3 + r3;
    var r1 := s2 + r2;
    LookupShort(s1, r1, n1, name);
    LookupShort(s2, r2, n2, name);
    LookupShort(s3, r3, n3, name);
    LookupShort(s4, s5, n4, name);
    LookupShort(s5, [], n5, name);
    assert s5 + [] == s5;
  }

  /** A trailing single parameter does not hide any other name. */
  lemma LookupBeforeSingle(a: QueryParams, s: QueryParams, n: ParamName, name: ParamName)
    requires Single(s, n) && name != n
    ensures Lookup(a + s, name) == Lookup(a, name)
  {
    LookupAppend(a, s, name);
    LookupShort(s, [], n, name);
    assert s + [] == s;
  }

  /** A segment of at most one parameter, named `n`, in front of the rest:
      its own name is looked up in it first, any other name behind it. */
  lemma LookupShort(s: QueryParams, rest: QueryParams, n: ParamName, name: ParamName)
    requires Single(s, n)
    ensures Lookup(s + rest, name)
         == (if name == n && |s| == 1 then Some(s[0].1) else Lookup(rest, name))
    ensures name == n ==> Lookup(s, name) == (if |s| == 1 then Some(s[0].1) else None)
  {
    if |s| == 1 {
      assert (s + rest)[0] == s[0] && (s + rest)[1..] == rest;
    } else {
      assert s + rest == rest;
    }
  }

  /** The parameters every SerpAPI Home Depot request carries first. */
  function RequiredParams(apiKey: string, query: string, country: string): (qp: QueryParams)
    ensures DistinctNames(qp)
  {
    [(Engine, "home_depot"), (ApiKey, apiKey), (Q, query), (Country, country), (Output, "json")]
  }

  /** The names the required parameters use. */
  const RequiredNames: set<ParamName> := {Engine, ApiKey, Q, Country, Output}

  /** What the required parameters say, whatever follows them. */
  lemma RequiredFirst(apiKey: string, query: string, country: string, tail: QueryParams)
    requires NamesIn(tail, TailNames)
    ensures var qp := RequiredParams(apiKey, query, country) + tail;
      && Lookup(qp, Engine) == Some("home_depot")
      && Lookup(qp, ApiKey) == Some(apiKey)
      && Lookup(qp, Q) == Some(query)
      && Lookup(qp, Country) == Some(country)
      && Lookup(qp, Output) == Some("json")
  {
    var req := RequiredParams(apiKey, query, country);
    RequiredBefore(req, tail, Engine);
    RequiredBefore(req, tail, ApiKey);
    RequiredBefore(req, tail, Q);
    RequiredBefore(req, tail, Country);
    RequiredBefore(req, tail, Output);
    LookupUnique(req, Engine, "home_depot");
    LookupUnique(req, ApiKey, apiKey);
    LookupUnique(req, Q, query);
    LookupUnique(req, Country, country);
    LookupUnique(req, Output, "json");
  }

  /** A required name is found before the tail. */
  lemma RequiredBefore(req: QueryParams, tail: QueryParams, name: ParamName)
    requires NamesIn(tail, TailNames) && name in RequiredNames
    ensures Lookup(req + tail, name) == Lookup(req, name)
  {
    NamesAvoid(tail, TailNames, name);
    LookupBefore(req, tail, name);
  }

  /** Any name that is not required is looked up in the tail. */
  lemma RequiredPast(apiKey: string, query: string, country: string, tail: QueryParams, name: ParamName)
    requires name !in RequiredNames
    ensures Lookup(RequiredParams(apiKey, query, country) + tail, name) == Lookup(tail, name)
  {
    LookupPast(RequiredParams(apiKey, query, country), tail, name);
  }

  /** The names that may follow the required parameters. */
  const TailNames: set<ParamName> := {HdSort, DeliveryZip, LowerBound, UpperBound, Page, PageSize}

  /** A name outside the set a list draws its names from is carried by no
      parameter of the list. */
  lemma NamesAvoid(qp: QueryParams, names: set<ParamName>, name: ParamName)
    requires NamesIn(qp, names) && name !in names
    ensures forall i :: 0 <= i < |qp| ==> qp[i].0 != name
  {
  }
}

=== FILE: vendors.dfy ===
/** The vendor abstraction: the canonical product and result records, the
    four vendor variants with their availability rule and search behaviour,
    and the Home Depot adapter's translation to and from SerpAPI. */
module Vendors {
  import opened Wrappers
  import opened Js
  import opened Upstream

  /** A normalised product, whichever vendor produced it. */
  datatype Product = Product(
    id: string,
    title: string,
    price: string,
    originalPrice: Option<string>,
    brand: Option<string>,
    rating: Option<real>,
    reviews: Option<int>,
    image: Option<string>,
    url: Option<string>,
    vendor: string,
    vendorLogo: Option<string>,
    deliveryOptions: Option<seq<string>>,
    storeAvailability: Option<bool>,
    storeLocation: Option<string>,
    inStock: Option<bool>,
    unit: Option<string>,
    weight: Option<string>,
    dimensions: Option<string>)

  /** The canonical request every vendor receives.  `sortBy` is any string:
      the enumeration in its declared type is not enforced at run time. */
  datatype SearchParams = SearchParams(
    query: string,
    location: Option<string>,
    zipCode: Option<string>,
    sortBy: Option<string>,
    minPrice: Option<int>,
    maxPrice: Option<int>,
    page: Option<int>,
    limit: Option<int>)

  /** One vendor's outcome. */
  datatype SearchResult = SearchResult(
    products: seq<Product>,
    totalResults: Option<int>,
    vendor: string,
    error: Option<string>)

  /** An opaque local-supplier record (`LocalSupplierVendor` types them as `any`). */
  type Supplier = string

  /** The four vendor implementations. */
  datatype Vendor =
    | HomeDepot(apiKey: string)
    | Lowes(lowesKey: Option<string>)
    | Menards(menardsKey: Option<string>)
    | LocalSupplier(suppliers: seq<Supplier>)

  function Name(v: Vendor): string {
    match v
    case HomeDepot(_) => "Home Depot"
    case Lowes(_) => "Lowe's"
    case Menards(_) => "Menards"
    case LocalSupplier(_) => "Local Suppliers"
  }

  function Logo(v: Vendor): string {
    match v
    case HomeDepot(_) => "/vendors/home-depot-logo.png"
    case Lowes(_) => "/vendors/lowes-logo.png"
    case Menards(_) => "/vendors/menards-logo.png"
    case LocalSupplier(_) => "/vendors/local-supplier-logo.png"
  }

  /** `isAvailable()`: a key-based vendor needs a non-empty key, the local
      supplier needs at least one supplier.  No I/O is involved. */
  predicate IsAvailable(v: Vendor) {
    match v
    case HomeDepot(key) => key != ""
    case Lowes(key) => Truthy(key)
    case Menards(key) => Truthy(key)
    case LocalSupplier(suppliers) => |suppliers| > 0
  }

  /** The sort codes the Home Depot search endpoint understands. */
  predicate IsHomeDepotSort(s: string) {
    s == "price_low_to_high" || s == "price_high_to_low" || s == "top_rated" || s == "best_match"
  }

  /** The Home Depot adapter's private `mapSortBy`. */
  function MapSortBy(sortBy: string): (r: string)
    ensures IsHomeDepotSort(r)
    ensures r == "top_rated" <==> sortBy == "rating"
    ensures r == "price_low_to_high" <==> sortBy == "price_low_to_high"
    ensures r == "price_high_to_low" <==> sortBy == "price_high_to_low"
  {
    match sortBy
    case "price_low_to_high" => "price_low_to_high"
    case "price_high_to_low" => "price_high_to_low"
    case "rating" => "top_rated"
    case _ => "best_match"
  }

  /** The parameters the request carries only when their values are truthy. */
  function OptionalParams(p: SearchParams): (qp: QueryParams)
  {
    OptionalParam(HdSort, if Truthy(p.sortBy) then Some(MapSortBy(p.sortBy.value)) else None)
    + (OptionalParam(DeliveryZip, p.zipCode)
    + (NumberParam(LowerBound, p.minPrice)
    + (NumberParam(UpperBound, p.maxPrice)
    + NumberParam(Page, p.page))))
  }

  /** The query parameters of the adapter's SerpAPI request, in the order the
      object literal of `searchProducts` lists them. */
  function HomeDepotQuery(apiKey: string, p: SearchParams): (qp: QueryParams)
  {
    RequiredParams(apiKey, p.query, "us") + (OptionalParams(p) + [(PageSize, "24")])
  }

  /** The names of the optional parameters. */
  const OptionalNames: set<ParamName> := {HdSort, DeliveryZip, LowerBound, UpperBound, Page}

  /** Only optional names occur, each at most once. */
  lemma OptionalParamsNames(p: SearchParams)
    ensures NamesIn(OptionalParams(p), OptionalNames)
    ensures DistinctNames(OptionalParams(p))
  {
    var sort := OptionalParam(HdSort, if Truthy(p.sortBy) then Some(MapSortBy(p.sortBy.value)) else None);
    var zip := OptionalParam(DeliveryZip, p.zipCode);
    var lo := NumberParam(LowerBound, p.minPrice);
    var hi := NumberParam(UpperBound, p.maxPrice);
    var page := NumberParam(Page, p.page);
    assert Single(sort, HdSort) && Single(zip, DeliveryZip) && Single(lo, LowerBound);
    assert Single(hi, UpperBound) && Single(page, Page);
    FiveSegmentsNames(sort, zip, lo, hi, page, HdSort, DeliveryZip, LowerBound, UpperBound, Page);
  }

  /** Each optional parameter is found exactly when its value is truthy. */
  lemma OptionalParamsLookup(p: SearchParams)
    ensures var qp := OptionalParams(p);
      && Lookup(qp, HdSort) == (if Truthy(p.sortBy) then Some(MapSortBy(p.sortBy.value)) else None)
      && Lookup(qp, DeliveryZip) == (if Truthy(p.zipCode) then p.zipCode else None)
      && Lookup(qp, LowerBound) == (if TruthyNumber(p.minPrice) then Some(IntToString(p.minPrice.value)) else None)
      && Lookup(qp, UpperBound) == (if TruthyNumber(p.maxPrice) then Some(IntToString(p.maxPrice.value)) else None)
      && Lookup(qp, Page) == (if TruthyNumber(p.page) then Some(IntToString(p.page.value)) else None)
  {
    var sort := OptionalParam(HdSort, if Truthy(p.sortBy) then Some(MapSortBy(p.sortBy.value)) else None);
    var zip := OptionalParam(DeliveryZip, p.zipCode);
    var lo := NumberParam(LowerBound, p.minPrice);
    var hi := NumberParam(UpperBound, p.maxPrice);
    var page := NumberParam(Page, p.page);
    assert Single(sort, HdSort) && Single(zip, DeliveryZip) && Single(lo, LowerBound);
    assert Single(hi, UpperBound) && Single(page, Page);
    LookupFiveSegments(sort, zip, lo, hi, page, HdSort, DeliveryZip, LowerBound, UpperBound, Page);
  }

  /** The request always names the engine, key, query, country and output
      format, sends a page size of 24, and carries each optional parameter
      exactly when its value is truthy; no name is repeated. */
  lemma HomeDepotQueryShape(apiKey: string, p: SearchParams)
    ensures var qp := HomeDepotQuery(apiKey, p);
      && Lookup(qp, Engine) == Some("home_depot")
      && Lookup(qp, ApiKey) == Some(apiKey)
      && Lookup(qp, Q) == Some(p.query)
      && Lookup(qp, Country) == Some("us")
      && Lookup(qp, Output) == Some("json")
      && Lookup(qp, HdSort) == (if Truthy(p.sortBy) then Some(MapSortBy(p.sortBy.value)) else None)
      && Lookup(qp, DeliveryZip) == (if Truthy(p.zipCode) then p.zipCode else None)
      && Lookup(qp, LowerBound) == (if TruthyNumber(p.minPrice) then Some(IntToString(p.minPrice.value)) else None)
      && Lookup(qp, UpperBound) == (if TruthyNumber(p.maxPrice) then Some(IntToString(p.maxPrice.value)) else None)
      && Lookup(qp, Page) == (if TruthyNumber(p.page) then Some(IntToString(p.page.value)) else None)
      && Lookup(qp, PageSize) == Some("24")
      && DistinctNames(qp)
  {
    var req := RequiredParams(apiKey, p.query, "us");
    var tail := OptionalParams(p) + [(PageSize, "24")];
    OptionalParamsLookup(p);
    QueryTailShape(p);
    RequiredFirst(apiKey, p.query, "us", tail);
    QueryPastRequired(apiKey, p);
    assert NamesIn(req, RequiredNames);
    DistinctAppend(req, tail, RequiredNames, TailNames);
  }

  /** The optional parameters followed by the page size: nothing repeated,
      and the page size does not hide an optional parameter. */
  lemma QueryTailShape(p: SearchParams)
    ensures var opt := OptionalParams(p);
      var tail := opt + [(PageSize, "24")];
      && NamesIn(tail, TailNames)
      && DistinctNames(tail)
      && Lookup(tail, HdSort) == Lookup(opt, HdSort)
      && Lookup(tail, DeliveryZip) == Lookup(opt, DeliveryZip)
      && Lookup(tail, LowerBound) == Lookup(opt, LowerBound)
      && Lookup(tail, UpperBound) == Lookup(opt, UpperBound)
      && Lookup(tail, Page) == Lookup(opt, Page)
      && Lookup(tail, PageSize) == Some("24")
  {
    var opt := OptionalParams(p);
    var ps: QueryParams := [(PageSize, "24")];
    OptionalParamsNames(p);
    assert Single(ps, PageSize);
    DistinctAppend(opt, ps, OptionalNames, {PageSize});
    LookupBeforeSingle(opt, ps, PageSize, HdSort);
    LookupBeforeSingle(opt, ps, PageSize, DeliveryZip);
    LookupBeforeSingle(opt, ps, PageSize, LowerBound);
    LookupBeforeSingle(opt, ps, PageSize, UpperBound);
    LookupBeforeSingle(opt, ps, PageSize, Page);
    NamesAvoid(opt, OptionalNames, PageSize);
    LookupPast(opt, ps, PageSize);
  }

  /** Past the required parameters, every other name is looked up in the
      tail. */
  lemma QueryPastRequired(apiKey: string, p: SearchParams)
    ensures var qp := HomeDepotQuery(apiKey, p);
      var opt := OptionalParams(p);
      var tail := opt + [(PageSize, "24")];
      && Lookup(qp, HdSort) == Lookup(tail, HdSort)
      && Lookup(qp, DeliveryZip) == Lookup(tail, DeliveryZip)
      && Lookup(qp, LowerBound) == Lookup(tail, LowerBound)
      && Lookup(qp, UpperBound) == Lookup(tail, UpperBound)
      && Lookup(qp, Page) == Lookup(tail, Page)
      && Lookup(qp, PageSize) == Lookup(tail, PageSize)
  {
    var tail := OptionalParams(p) + [(PageSize, "24")];
    RequiredPast(apiKey, p.query, "us", tail, HdSort);
    RequiredPast(apiKey, p.query, "us", tail, DeliveryZip);
    RequiredPast(apiKey, p.query, "us", tail, LowerBound);
    RequiredPast(apiKey, p.query, "us", tail, UpperBound);
    RequiredPast(apiKey, p.query, "us", tail, Page);
    RequiredPast(apiKey, p.query, "us", tail, PageSize);
  }

  /** The upstream record translated into the canonical schema: missing id,
      title and price become the empty string, and the product is stamped
      with the Home Depot name and logo and marked in stock. */
  function FromUpstream(u: UpstreamProduct): (p: Product) {
    Product(
      id := Or(u.productId, ""),
      title := Or(u.title, ""),
      price := Or(u.price, ""),
      originalPrice := None,
      brand := u.brand,
      rating := u.rating,
      reviews := u.reviews,
      image := u.thumbnail,
      url := u.link,
      vendor := Name(HomeDepot("")),
      vendorLogo := Some(Logo(HomeDepot(""))),
      deliveryOptions := u.deliveryOptions,
      storeAvailability := u.storeAvailability,
      storeLocation := None,
      inStock := Some(true),
      unit := None,
      weight := None,
      dimensions := None)
  }

  /** The "coming soon" message of each placeholder vendor. */
  function ComingSoon(v: Vendor): string {
    match v
    case HomeDepot(_) => ""
    case Lowes(_) => "Lowe's integration coming soon"
    case Menards(_) => "Menards integration coming soon"
    case LocalSupplier(_) => "Local supplier integration coming soon"
  }

  /** A failed search: no products, the error captured as data. */
  function Failed(v: Vendor, message: string): SearchResult {
    SearchResult([], None, Name(v), Some(message))
  }

  /** Home Depot's `searchProducts`.  The key it sends is read from the
      environment, not the one the adapter was constructed with. */
  function HomeDepotSearch(params: SearchParams, env: Env, fetch: Fetcher): (r: SearchResult)
    ensures r.vendor == "Home Depot"
    ensures r.error.Some? ==> r.products == [] && r.totalResults == None
    ensures SerpApiKey(env).None? ==> r.error == Some(MissingKeyMessage)
    ensures SerpApiKey(env).Some? ==>
              var o := fetch(HomeDepotQuery(SerpApiKey(env).value, params));
              && (o.NetworkFailure? ==> r.error == Some(o.message))
              && (o.Response? && !IsOk(o.status) ==> r.error == Some("Home Depot API error: " + o.statusText))
              && (o.Response? && IsOk(o.status) && o.body.Unparsable? ==> r.error == Some(o.body.message))
    ensures r.error.None? <==> SerpApiKey(env).Some? && Delivered(fetch(HomeDepotQuery(SerpApiKey(env).value, params)))
    ensures r.error.None? ==>
              var data := fetch(HomeDepotQuery(SerpApiKey(env).value, params)).body.data;
              && |r.products| == |data.products.GetOr([])|
              && (forall i :: 0 <= i < |r.products| ==> r.products[i] == FromUpstream(data.products.GetOr([])[i]))
              && r.totalResults == data.totalResults
  {
    var v := HomeDepot("");
    var key := SerpApiKey(env);
    if key.None? then Failed(v, MissingKeyMessage)
    else
      match fetch(HomeDepotQuery(key.value, params))
      case NetworkFailure(message) => Failed(v, message)
      case Response(status, statusText, body) =>
        if !IsOk(status) then Failed(v, "Home Depot API error: " + statusText)
        else
          match body
          case Unparsable(message) => Failed(v, message)
          case Parsed(data) =>
            var items := data.products.GetOr([]);
            SearchResult(seq(|items|, i requires 0 <= i < |items| => FromUpstream(items[i])),
                         data.totalResults, Name(v), None)
  }

  /** `searchProducts` of every vendor.  It never fails: a failure is returned
      as a result with no products and an error message. */
  function SearchProducts(v: Vendor, params: SearchParams, env: Env, fetch: Fetcher): (r: SearchResult)
    ensures r.vendor == Name(v)
    ensures r.error.Some? ==> r.products == []
    ensures forall i :: 0 <= i < |r.products| ==>
              r.products[i].vendor == Name(v) && r.products[i].vendorLogo == Some(Logo(v))
              && r.products[i].inStock == Some(true)
    ensures !v.HomeDepot? ==> r == SearchResult([], None, Name(v), Some(ComingSoon(v)))
    ensures v.HomeDepot? ==> r == HomeDepotSearch(params, env, fetch)
  {
    match v
    case HomeDepot(_) => HomeDepotSearch(params, env, fetch)
    case _ => Failed(v, ComingSoon(v))
  }
}

=== FILE: wrappers.dfy ===
/** Optional values: the model's stand-in for a JavaScript property that may be
    `undefined` or `null`. */
module Wrappers {

  datatype Option<+T> = None | Some(value: T) {

    /** The wrapped value, or `default` when absent. */
    function GetOr(default: T): T {
      match this
      case Some(v) => v
      case None => default
    }
  }
}

=== FILE: zip.dfy ===
/** The ZIP code the search route pulls out of a free-text location: the
    first match of `/\b\d{5}\b/`, five ASCII digits standing alone as a word. */
module Zip {
  import opened Wrappers
  import opened Js

  /** The regular-expression word characters `[A-Za-z0-9_]`. */
  predicate IsWordChar(c: char) {
    'a' <= c <= 'z' || 'A' <= c <= 'Z' || IsDigit(c) || c == '_'
  }

  /** `\b\d{5}\b` matches at position `i`. */
  predicate ZipAt(s: string, i: nat) {
    i + 5 <= |s|
    && AllDigits(s[i..i + 5])
    && (i == 0 || !IsWordChar(s[i - 1]))
    && (i + 5 == |s| || !IsWordChar(s[i + 5]))
  }

  /** The leftmost match at or after `from`, as the regular-expression scan finds it. */
  function FirstZipFrom(s: string, from: nat): (r: Option<nat>)
    ensures r.Some? ==> from <= r.value && ZipAt(s, r.value)
    ensures r.Some? ==> forall j :: from <= j < r.value ==> !ZipAt(s, j)
    ensures r.None? ==> forall j :: from <= j ==> !ZipAt(s, j)
    decreases |s| - from
  {
    if from + 5 > |s| then None
    else if ZipAt(s, from) then Some(from)
    else FirstZipFrom(s, from + 1)
  }

  /** `location.match(/\b\d{5}\b/)?.[0]`, taken only for a non-empty location. */
  function ExtractZip(location: Option<string>): (zip: Option<string>)
    ensures !Truthy(location) ==> zip.None?
    ensures zip.Some? ==> |zip.value| == 5 && AllDigits(zip.value)
    ensures zip.Some? <==> Truthy(location) && exists i :: ZipAt(location.value, i)
  {
    if !Truthy(location) then None
    else
      match FirstZipFrom(location.value, 0)
      case None => None
      case Some(i) => Some(location.value[i..i + 5])
  }

  /** The ZIP is the leftmost stand-alone run of five digits. */
  lemma ExtractZipLeftmost(location: string, i: nat)
    requires ZipAt(location, i)
    requires forall j :: 0 <= j < i ==> !ZipAt(location, j)
    ensures ExtractZip(Some(location)) == Some(location[i..i + 5])
  {
    var r := FirstZipFrom(location, 0);
    assert r.Some?;
    assert r.value == i;
  }

  /** A bare five-digit location is its own ZIP code. */
  lemma PlainZip(z: string)
    requires |z| == 5 && AllDigits(z)
    ensures ExtractZip(Some(z)) == Some(z)
  {
    assert z[0..5] == z;
    ExtractZipLeftmost(z, 0);
  }

  /** A ZIP code after a city and state with no digits in them is found. */
  lemma ZipAfterCity(city: string, z: string)
    requires |z| == 5 && AllDigits(z)
    requires forall k :: 0 <= k < |city| ==> !IsDigit(city[k])
    requires |city| > 0 ==> !IsWordChar(city[|city| - 1])
    ensures ExtractZip(Some(city + z)) == Some(z)
  {
    var s := city + z;
    var n := |city|;
    assert s[n..n + 5] == z;
    forall j | 0 <= j < n ensures !ZipAt(s, j) {
      assert s[j] == city[j];
      if j + 5 <= |s| {
        assert s[j..j + 5][0] == s[j];
      }
    }
    ExtractZipLeftmost(s, n);
  }

  /** Six digits in a row are not a ZIP code. */
  lemma NoZipInLongerNumber(s: string)
    requires |s| == 6 && AllDigits(s)
    ensures ExtractZip(Some(s)) == None
  {
    forall j: nat ensures !ZipAt(s, j) {
      if j == 0 {
        assert IsWordChar(s[5]);
      } else if j == 1 {
        assert IsWordChar(s[0]);
      }
    }
  }
}
